=== FILE: README.md ===
# williams-monitor in Dafny

A model of the decision logic of the Rhys Williams post monitor. The monitor
is a serverless endpoint. It polls the Betfair RSS feed, or in its other
variant the author's page, for posts by one author. It keeps the posts whose
link is not in a seen list held in a key-value store, and alerts on them by
email and Slack. Then it appends their links to the seen list and answers
with a JSON report.

The model has one module per part of the program:

- `Wrappers`: `Option`, `Result`, and a thrown value with the
  `error instanceof Error ? error.message : "Unknown error"` rule.
- `Text`: the JavaScript string operations the monitor relies on.
  - `trim` over the ECMAScript whitespace set.
  - ASCII `toLowerCase`.
  - `includes`.
  - Decimal rendering of counts.
- `Selection`: the one-pass "skip or push" loop shared by every scan.
  - `FilterMap` is the loop.
  - `Picked` and `SelectedBy` describe its result independently: the result is the ordered selection of the kept answers.
- `Posts`: the `Post` record and the seen check `Unseen`.
- `Storage`: `PostStorage` over the key-value store (utils/storage.ts). The check-rhys copies of `getSeenPosts` and `addSeenPosts` are the same code and are modelled once.
- `RssFeed`: `scrapeNewPosts` of api/check-rhys.ts, covering item classification, the author filter, the seen check and the fetch errors.
- `AuthorPage`: `RhysScraper` of utils/scraper.ts, covering the five-article window, `parseArticle` and the per-article seen reads.
- `Render`: the plain-text email body and the Slack message of both files.
- `Alerts`: `AlertService` of utils/alerts.ts, covering which channels are configured, what each is sent, and the per-channel `AlertResult`s.
- `Monitor`: the `handler` of api/check-rhys.ts with its own boolean senders. It covers the success and error reports, and when alerts are sent and links are committed.

Everything outside the program's own logic is an input of the model:

- the feed or page response;
- whether each store read or write succeeds;
- the environment variables;
- the transport's and the webhook's answers;
- the formatted clock readings.

The locale date formatter is a function parameter.

Behaviours of the code worth knowing:

- The seen list is a list, not a set. A link seen twice in one feed is reported twice and stored twice (`RssFeed.RepeatedEntryReportedTwice`, `Storage.AddSeenPostsAppends`).
- A stored link can be forgotten. If the read inside `addSeenPosts` throws and the write succeeds, the stored list is replaced by the new links (`Storage.ReadFailureLosesHistory`).
- The RSS handler reports channel outcomes as two booleans, not as a list of outcomes. `Monitor.FlagsAgreeWithAlertService` relates the two forms.

## Model

| member | source | states |
|---|---|---|
| Wrappers.ErrorMessage | api/check-rhys.ts:347 | an Error value yields its message and any other thrown value yields "Unknown error" |
| Text.TrimSpec | api/check-rhys.ts:231-232 | the result is empty exactly when the input is all whitespace, and otherwise neither starts nor ends with whitespace |
| Text.TrimStartSpec | api/check-rhys.ts:231-232 | leading whitespace removal keeps the suffix that starts at the first non-space character |
| Text.TrimEndSpec | api/check-rhys.ts:231-232 | trailing whitespace removal keeps the prefix that ends at the last non-space character |
| Text.TrimIsSlice | api/check-rhys.ts:231-232 | what trim removes is a run of leading and a run of trailing whitespace, and the rest of the string is kept in place |
| Text.TrimIdempotent | utils/scraper.ts:66 | trimming a trimmed string changes nothing |
| Text.ToLowerIdempotent | api/check-rhys.ts:239-240 | lower-casing twice equals lower-casing once, and no upper-case ASCII letter survives |
| Text.Contains | api/check-rhys.ts:239-240 | includes holds exactly when the pattern occurs at some offset |
| Text.NatToStringRoundTrip | utils/alerts.ts:104 | the decimal rendering of a count reads back as the same count |
| Text.NatToStringInjective | utils/alerts.ts:119 | different counts render differently |
| Selection.FilterMapSelects | api/check-rhys.ts:222-262 | a skip-or-push loop's output is exactly the kept answers of the kept positions, in input order |
| Selection.SelectedByUnique | api/check-rhys.ts:222-262 | any ordered selection of exactly the kept answers equals the loop's output |
| Selection.FilterMapAppend | utils/scraper.ts:34-48 | scanning two lists one after the other outputs the two scans' outputs concatenated |
| Selection.FilterMapThen | api/check-rhys.ts:229-258 | a loop that first classifies and then checks the seen list equals two successive scans |
| Selection.FilterMapKeepsAll | api/check-rhys.ts:253-254 | a scan that keeps every element unchanged returns its input |
| Posts.Links | api/check-rhys.ts:327 | the committed links are the new posts' links, one per post and in order |
| Posts.UnseenExactly | api/check-rhys.ts:253-254 | a candidate is reported iff its link is not in the seen list, and candidate order is kept |
| Posts.UnseenIdempotent | api/check-rhys.ts:253-254 | checking the reported posts again against the same list keeps them all |
| Posts.UnseenAfterCommit | api/check-rhys.ts:318-327 | once the reported links are appended to the seen list, the same candidates yield nothing new |
| Posts.UnseenKeepsRepeats | api/check-rhys.ts:218 | since the seen list is read once before the loop, an unseen post is reported as often as it occurs |
| Storage.GetSeenPosts | utils/storage.ts:6-14 | the stored list when the key is present and the read succeeds, else the empty list, never an error |
| Storage.AddSeenPosts | utils/storage.ts:16-24 | a successful write stores the list read (or []) followed by the new links; a failed write changes nothing; other keys are untouched |
| Storage.IsPostSeen | utils/storage.ts:26-29 | true iff the read succeeds and the link is in the stored list |
| Storage.AddSeenPostsAppends | utils/storage.ts:19 | after a successful commit the old list is a prefix of the stored list, the new links are the rest, and duplicates are kept |
| Storage.AddThenSeen | utils/storage.ts:16-29 | after a successful commit every committed link and every earlier link reads as seen |
| Storage.ReadFailureLosesHistory | utils/storage.ts:18-20 | if the commit's read throws and its write succeeds, earlier links not among the new ones are forgotten |
| Storage.ReadFailureSeesNothing | utils/storage.ts:10-13 | a failed read reports no link as seen |
| RssFeed.Candidate | api/check-rhys.ts:224-251 | an entry yields a post iff it has a title and a link that are non-blank once trimmed and a category or the title mentions the author; the post carries the trimmed title and link |
| RssFeed.ScanItems | api/check-rhys.ts:222-262 | the item loop with its early continues computes the author-filtered, unseen posts in feed order |
| RssFeed.ScrapeNewPosts | api/check-rhys.ts:193-271 | a non-OK status or a thrown error gives "Failed to fetch RSS feed: ..." with the cause's message; otherwise the scan against the seen list read once |
| RssFeed.CandidatesSound | api/check-rhys.ts:222-251 | every candidate comes from an entry of the feed |
| RssFeed.CandidatesComplete | api/check-rhys.ts:222-251 | every entry that yields a candidate contributes it |
| RssFeed.NewPostsExactly | api/check-rhys.ts:222-262 | a post is reported iff it comes from a qualifying entry whose trimmed link is unseen; each has non-blank title and link and the author's name; feed order is kept |
| RssFeed.SkippedEntryIsInert | api/check-rhys.ts:229-244 | an entry that fails the title, link or author checks has no effect wherever it stands |
| RssFeed.TitleAloneDecides | api/check-rhys.ts:229-244 | an entry without categories yields a post exactly when its trimmed title and link are non-blank and the title mentions the author |
| RssFeed.RepeatedEntryReportedTwice | api/check-rhys.ts:218-254 | an unseen qualifying entry occurring twice in one feed is reported twice |
| RssFeed.OneNewOfThree | api/check-rhys.ts:222-262 | a feed of one unseen and one seen qualifying entry and one foreign entry yields just the first post |
| RssFeed.RescanAfterCommitIsEmpty | api/check-rhys.ts:304-327 | after committing the reported links, the same feed yields no new post |
| AuthorPage.DateOf | utils/scraper.ts:68 | the datetime attribute when present and non-empty, else "Unknown" |
| AuthorPage.ParseArticle | utils/scraper.ts:58-80 | no value when inspecting the article throws; null without a title link or with a blank title or empty href; otherwise the trimmed title, the href, the date and the author's name |
| AuthorPage.Window | utils/scraper.ts:8-34 | the loop visits min(articles, 5) articles |
| AuthorPage.ScanArticles | utils/scraper.ts:34-48 | the bounded loop, with a store read per parsed article and throwing articles skipped, computes the unseen parsed posts of the window in page order |
| AuthorPage.VisitArticle | utils/scraper.ts:35-47 | one iteration pushes the parsed post exactly when parsing succeeds and its link is not stored |
| AuthorPage.ScrapeNewPosts | utils/scraper.ts:11-56 | a non-OK status or a thrown error gives "Failed to scrape posts: ..." with the cause's message; otherwise the scan of the window |
| AuthorPage.CandidatesExactly | utils/scraper.ts:34-44 | a post is among the parsed candidates iff some article of the window parses to it |
| AuthorPage.NewPostsExactly | utils/scraper.ts:34-48 | a post is reported iff it parses from one of the first five articles and its link is unseen; at most five; page order is kept |
| AuthorPage.LaterArticlesIgnored | utils/scraper.ts:34 | articles after the fifth never affect the result |
| AuthorPage.UnreadableArticleSkipped | utils/scraper.ts:37-47 | an article whose inspection throws is skipped and the scan goes on |
| AuthorPage.RescanAfterCommitIsEmpty | utils/scraper.ts:34-48 | after committing the reported links, the same page yields no new post |
| Render.PostsWord | api/check-rhys.ts:170 | "posts" exactly for more than one post and "post" otherwise; always "post(s)" in the alert service |
| Render.Blocks | utils/alerts.ts:106-110 | one block per post, numbered consecutively from the first number, in input order |
| Render.ItemsAppend | utils/alerts.ts:106-110 | rendering a list in two parts continues the numbering where the first part stopped |
| Render.ItemAt | utils/alerts.ts:106-110 | post i is rendered as block i + 1 between the blocks of the posts before and after it |
| Render.BlockShowsPost | utils/alerts.ts:107-109 | a block contains its post's title and link |
| Render.FormatEmailBody | utils/alerts.ts:103-116 | the email body opens with the header stating the count and contains every post's title and link; block numbering is stated by Render.ItemAt and the count's uniqueness by Render.HeadersDetermineCount |
| Render.FormatSlackMessage | utils/alerts.ts:118-130 | the Slack text opens with the header stating the count and contains every post's title and link; the same helper renders api/check-rhys.ts:169-181 with the inflected word |
| Render.BodiesShowEveryPost | utils/alerts.ts:103-130 | both the email body and the Slack message contain every post's title and link |
| Render.HeadersDetermineCount | utils/alerts.ts:104-119 | two equal headers state the same count |
| Alerts.IsEmailConfigured | utils/alerts.ts:28-30 | both EMAIL_USER and EMAIL_PASS set and non-empty; Alerts.SendAlerts states that an email result is present exactly then |
| Alerts.IsSlackConfigured | utils/alerts.ts:32-34 | SLACK_WEBHOOK set and non-empty; Alerts.SendAlerts states that a Slack result is present exactly then |
| Alerts.Recipient | utils/alerts.ts:41 | EMAIL_TO when set and non-empty, otherwise EMAIL_USER |
| Alerts.Subject | utils/alerts.ts:52 | the subject is the tips lead, then the post count as decimal digits with no leading zero that read back as the count, then " post(s)" |
| Alerts.ComposeEmail | utils/alerts.ts:38-60 | the mail goes from the sender to the recipient, with the counted subject and the plain-text body of the posts |
| Alerts.SlackText | utils/alerts.ts:75-81 | the text posted to the webhook contains every post's title and link |
| Alerts.SendEmailAlert | utils/alerts.ts:36-70 | success iff the transport delivers; otherwise the thrown error's message; success iff no error |
| Alerts.SendSlackAlert | utils/alerts.ts:72-101 | success iff the webhook answers 2xx; a non-OK answer gives "HTTP status: statusText"; a thrown error gives its message |
| Alerts.SendAlerts | utils/alerts.ts:6-34 | one result per configured channel, email before Slack, an unconfigured channel absent, success iff no error |
| Alerts.ChannelsIndependent | utils/alerts.ts:6-26 | each channel's result depends only on that channel's own outcome |
| Alerts.OnlySlackConfigured | utils/alerts.ts:6-33 | with only the webhook configured and an OK answer, the one result is a Slack success |
| Alerts.SlackServerErrorIsolated | utils/alerts.ts:87-93 | a 500 from the webhook fails Slack with "HTTP 500: Internal Server Error" while a delivered email still succeeds |
| Monitor.EmailSent | api/check-rhys.ts:50-89 | true iff email is configured and the transport delivers |
| Monitor.SlackSent | api/check-rhys.ts:91-127 | true iff the webhook is configured and answers 2xx |
| Monitor.WithDisplayDates | api/check-rhys.ts:134 | each post keeps its title, link and author, and its date is passed once more through the locale formatter; Monitor.RunEmail states that the email body is rendered from these posts |
| Monitor.RunEmail | api/check-rhys.ts:71-80 | the handler's mail goes from the sender to the recipient, carries the same counted subject as the alert service, has as its text the email body of the posts with re-rendered dates, and contains every post's title and link |
| Monitor.RunSlackText | api/check-rhys.ts:169-181 | the handler's Slack text contains every post's title and link |
| Monitor.Handle | api/check-rhys.ts:301-362 | on success: 200, the scanned posts and count, the matching message, flags set only when there are posts, commit only when there are posts; on failure: 500, no posts, the error message, both flags false, store untouched |
| Monitor.SecondRunFindsNothing | api/check-rhys.ts:304-327 | after a run against a healthy store, a second run on the same feed finds nothing, alerts no one and leaves the store as it is |
| Monitor.LostCommitRealerts | api/check-rhys.ts:40-47 | when the commit's write fails, the next run reports the same posts again |
| Monitor.FlagsAgreeWithAlertService | api/check-rhys.ts:318-324 | the handler's flags are true exactly when the alert service reports a success for that channel |
| Monitor.ThreeEntryFeed | api/check-rhys.ts:301-345 | a feed with one new, one seen and one foreign entry reports and commits exactly the new one |

## Left out

- HTTP fetching, XML and HTML parsing: the feed and the page arrive already parsed, as entries and articles with optional children.
- The mail transport and the webhook request: their answers are inputs, and the mail and message contents are modelled separately.
- Clocks and locale date formatting: `parseRSSDate`, `toLocaleString` and `new Date()` are a function parameter or string parameters.
- `Promise.all`: the two alert attempts of the handler are independent pure functions, so their ordering does not matter.
- `formatEmailHTML`: the HTML body is markup only and repeats the text body's contents.
- CORS headers, the OPTIONS reply and the favicon short-cut of the handler: request routing, not monitor logic.
- Console logging throughout.
- api/clear-seen.ts, api/debug-seen.ts and test-local.ts: administrative and local-run entry points, not part of this model.
- Text.ToLower: only ASCII letters are lower-cased, because JavaScript's full Unicode case mapping is a runtime table.
- AuthorPage.ScanArticles: every `isPostSeen` read in one scan has the same outcome, one `readOk` flag, rather than one per article.
- The `try`/`catch` around each RSS item: nothing inside it can throw in the modelled code, so it adds no branch.
- The category text of an RSS item is taken as a string; a missing text content is not distinguished from an empty one.

=== FILE: alerts.dfy ===
/** The alert service (`AlertService` in utils/alerts.ts): which channels are
    configured, what is handed to each, and how each attempt's outcome becomes
    an `AlertResult`. The mail transport and the webhook request are outside
    the model; their answers are inputs. */
module Alerts {
  import opened Wrappers
  import opened Text
  import opened Posts
  import opened Render

  /** The environment variables the service reads; `None` is an unset variable. */
  datatype Env = Env(
    emailUser: Option<string>,
    emailPass: Option<string>,
    emailTo: Option<string>,
    slackWebhook: Option<string>)

  /** JavaScript truthiness of an optional string: set and non-empty. */
  predicate Truthy(v: Option<string>) {
    v.Some? && v.value != ""
  }

  /** `isEmailConfigured()`. */
  predicate IsEmailConfigured(env: Env) {
    Truthy(env.emailUser) && Truthy(env.emailPass)
  }

  /** `isSlackConfigured()`. */
  predicate IsSlackConfigured(env: Env) {
    Truthy(env.slackWebhook)
  }

  datatype Channel = Email | Slack

  /** `interface AlertResult`: the channel, whether the attempt succeeded, and
      the error text when it did not. */
  datatype AlertResult = AlertResult(channel: Channel, success: bool, error: Option<string>)

  /** What `sendMail` is asked to deliver. */
  datatype Mail = Mail(from: string, to: string, subject: string, text: string)

  /** The transport's answer: delivered, or a thrown error. */
  datatype EmailDelivery = Delivered | TransportFailed(thrown: Thrown)

  /** What the webhook answered: a response with status and status text, or a
      thrown error (network failure). */
  datatype SlackDelivery = Responded(status: nat, statusText: string) | RequestFailed(thrown: Thrown)

  /** `EMAIL_TO || EMAIL_USER`: the override recipient when it is set and
      non-empty, otherwise the sender. */
  function Recipient(env: Env): (to: string)
    requires IsEmailConfigured(env)
    ensures to != []
    ensures Truthy(env.emailTo) ==> to == env.emailTo.value
    ensures !Truthy(env.emailTo) ==> to == env.emailUser.value
  {
    if Truthy(env.emailTo) then env.emailTo.value else env.emailUser.value
  }

  const SUBJECT_LEAD: string := "\U{1F3C7} New Rhys Williams Tips - "

  /** The subject line of an alert mail: the lead, then the count in decimal. */
  function Subject(n: nat): (s: string)
    ensures |s| > |SUBJECT_LEAD| + |" post(s)"|
    ensures s[..|SUBJECT_LEAD|] == SUBJECT_LEAD && s[|s| - |" post(s)"|..] == " post(s)"
    ensures forall k :: |SUBJECT_LEAD| <= k < |s| - |" post(s)"| ==> IsDigit(s[k])
    ensures s[|SUBJECT_LEAD|] == '0' ==> n == 0
    ensures DigitsValue(s[|SUBJECT_LEAD|..|s| - |" post(s)"|]) == n
  {
    var num := NatToString(n);
    var s := SUBJECT_LEAD + num + " post(s)";
    assert s[|SUBJECT_LEAD|..|s| - |" post(s)"|] == num;
    assert s[|s| - |" post(s)"|..] == " post(s)";
    NatToStringRoundTrip(n);
    s
  }

  /** The message the email channel sends: from the sender, to the recipient,
      with the count in the subject and the plain-text body. */
  function ComposeEmail(env: Env, posts: seq<Post>, stamp: string): (m: Mail)
    requires IsEmailConfigured(env)
    ensures m.from == env.emailUser.value && m.to == Recipient(env)
    ensures m.subject == Subject(|posts|)
    ensures m.text == FormatEmailBody(posts, stamp)
  {
    Mail(env.emailUser.value, Recipient(env), Subject(|posts|), FormatEmailBody(posts, stamp))
  }

  /** `sendEmailAlert`: success when the transport delivers, otherwise a
      failure carrying the thrown error's message. */
  function SendEmailAlert(delivery: EmailDelivery): (r: AlertResult)
    ensures r.channel == Email
    ensures r.success <==> delivery.Delivered?
    ensures r.success <==> r.error.None?
    ensures delivery.TransportFailed? ==> r.error == Some(ErrorMessage(delivery.thrown))
  {
    match delivery
    case Delivered => AlertResult(Email, true, None)
    case TransportFailed(t) => AlertResult(Email, false, Some(ErrorMessage(t)))
  }

  /** `sendSlackAlert`: success on an OK response; a non-OK response becomes
      the error `HTTP <status>: <statusText>`, a thrown error its message. */
  function SendSlackAlert(delivery: SlackDelivery): (r: AlertResult)
    ensures r.channel == Slack
    ensures r.success <==> delivery.Responded? && StatusOk(delivery.status)
    ensures r.success <==> r.error.None?
    ensures delivery.Responded? && !StatusOk(delivery.status) ==>
              r.error == Some("HTTP " + NatToString(delivery.status) + ": " + delivery.statusText)
    ensures delivery.RequestFailed? ==> r.error == Some(ErrorMessage(delivery.thrown))
  {
    match delivery
    case Responded(status, statusText) =>
      if StatusOk(status) then AlertResult(Slack, true, None)
      else AlertResult(Slack, false, Some("HTTP " + NatToString(status) + ": " + statusText))
    case RequestFailed(t) => AlertResult(Slack, false, Some(ErrorMessage(t)))
  }

  /** The Slack message text handed to the webhook: it shows every post's
      title and link. */
  function SlackText(posts: seq<Post>, stamp: string): (text: string)
    ensures forall i :: 0 <= i < |posts| ==> Contains(text, posts[i].title) && Contains(text, posts[i].link)
  {
    var text := FormatSlackMessage(posts, stamp, Parenthesised);
    assert forall i :: 0 <= i < |posts| ==> Contains(text, posts[i].title) && Contains(text, posts[i].link) by {
      forall i | 0 <= i < |posts|
        ensures Contains(text, posts[i].title) && Contains(text, posts[i].link)
      {
        BodiesShowEveryPost(posts, stamp, Parenthesised, i);
      }
    }
    text
  }

  /** The entry for `c` in a result list, if there is one. */
  function ResultFor(results: seq<AlertResult>, c: Channel): Option<AlertResult>
    decreases |results|
  {
    if results == [] then None
    else if results[0].channel == c then Some(results[0])
    else ResultFor(results[1..], c)
  }

  /** `sendAlerts(posts)`: attempt email if configured, then Slack if
      configured, collecting one result per attempted channel. An unconfigured
      channel is left out, not reported as failed. `emailDelivery` and
      `slackDelivery` are what the transport and the webhook answer to the
      messages `ComposeEmail` and `SlackText` describe. */
  function SendAlerts(env: Env, emailDelivery: EmailDelivery, slackDelivery: SlackDelivery)
    : (results: seq<AlertResult>)
    ensures |results| == (if IsEmailConfigured(env) then 1 else 0) + (if IsSlackConfigured(env) then 1 else 0)
    ensures (exists k :: 0 <= k < |results| && results[k].channel == Email) <==> IsEmailConfigured(env)
    ensures (exists k :: 0 <= k < |results| && results[k].channel == Slack) <==> IsSlackConfigured(env)
    ensures forall j, k ::
              (0 <= j < |results| && 0 <= k < |results| && results[j].channel == Email && results[k].channel == Slack)
              ==> j < k
    ensures forall k :: 0 <= k < |results| ==> (results[k].success <==> results[k].error.None?)
  {
    var emailPart := if IsEmailConfigured(env) then [SendEmailAlert(emailDelivery)] else [];
    var slackPart := if IsSlackConfigured(env) then [SendSlackAlert(slackDelivery)] else [];
    var results := emailPart + slackPart;
    assert IsEmailConfigured(env) ==> results[0].channel == Email;
    assert IsSlackConfigured(env) ==> results[|results| - 1].channel == Slack;
    results
  }

  /** Each channel's result depends on that channel's own outcome only: a
      failing email does not change the Slack result, nor the other way round. */
  lemma ChannelsIndependent(env: Env, e1: EmailDelivery, e2: EmailDelivery, s1: SlackDelivery, s2: SlackDelivery)
    ensures ResultFor(SendAlerts(env, e1, s1), Slack) == ResultFor(SendAlerts(env, e2, s1), Slack)
    ensures ResultFor(SendAlerts(env, e1, s1), Email) == ResultFor(SendAlerts(env, e1, s2), Email)
    ensures IsSlackConfigured(env) ==> ResultFor(SendAlerts(env, e1, s1), Slack) == Some(SendSlackAlert(s1))
    ensures IsEmailConfigured(env) ==> ResultFor(SendAlerts(env, e1, s1), Email) == Some(SendEmailAlert(e1))
  {
  }

  /** With only the webhook configured, the one result is Slack's, and it
      succeeds when the webhook answers OK. */
  lemma OnlySlackConfigured(env: Env, e: EmailDelivery, statusText: string)
    requires !IsEmailConfigured(env) && IsSlackConfigured(env)
    ensures SendAlerts(env, e, Responded(200, statusText)) == [AlertResult(Slack, true, None)]
  {
  }

  /** A webhook answering 500 fails only the Slack result; a delivered email
      still succeeds. */
  lemma SlackServerErrorIsolated(env: Env)
    requires IsEmailConfigured(env) && IsSlackConfigured(env)
    ensures SendAlerts(env, Delivered, Responded(500, "Internal Server Error")) ==
              [AlertResult(Email, true, None),
               AlertResult(Slack, false, Some("HTTP 500: Internal Server Error"))]
  {
    assert DigitChar(0) == '0' && DigitChar(5) == '5';
    assert NatToString(5) == "5";
    assert NatToString(50) == NatToString(5) + ['0'] == "50";
    assert NatToString(500) == NatToString(50) + ['0'] == "500";
    assert "HTTP " + "500" + ": " + "Internal Server Error" == "HTTP 500: Internal Server Error";
  }
}

=== FILE: author_page.dfy ===
/** The author-page variant of the scan (`RhysScraper` in utils/scraper.ts):
    the first few `.entry_summary` articles of the author's page, each parsed
    into a post and checked against the store. Fetching and HTML parsing are
    outside the model; the page arrives as a status code and parsed articles. */
module AuthorPage {
  import opened Wrappers
  import opened Text
  import opened Selection
  import opened Posts
  import opened Storage

  /** `MAX_POSTS_TO_CHECK`: how many articles of the page are examined. */
  const MAX_POSTS_TO_CHECK: nat := 5

  /** The `h2.title a` element: its text content and its resolved `href`. */
  datatype Anchor = Anchor(text: string, href: string)

  /** The `<time>` element and its `datetime` attribute, if any. */
  datatype TimeElem = TimeElem(datetime: Option<string>)

  /** One `.entry_summary` article, or one whose inspection throws. */
  datatype Article =
    | Article(titleLink: Option<Anchor>, time: Option<TimeElem>)
    | UnreadableArticle

  datatype PageFetch =
    | PageResponse(status: nat, articles: seq<Article>)
    | PageUnavailable(thrown: Thrown)

  /** `timeElem?.getAttribute("datetime") || "Unknown"`. */
  function DateOf(time: Option<TimeElem>): (date: string)
    ensures date != []
    ensures date == "Unknown" || (time.Some? && time.value.datetime == Some(date))
    ensures time.Some? && time.value.datetime.Some? && time.value.datetime.value != [] ==>
              date == time.value.datetime.value
    ensures (time.None? || time.value.datetime.None? || time.value.datetime == Some("")) ==> date == "Unknown"
  {
    match time
    case Some(TimeElem(Some(d))) => if d != "" then d else "Unknown"
    case _ => "Unknown"
  }

  /** `parseArticle`: `None` when inspecting the article throws, `Some(None)`
      (null) when there is no title link or its trimmed text or `href` is
      empty, otherwise the post, always attributed to the author. */
  function ParseArticle(a: Article): (r: Option<Option<Post>>)
    ensures r.None? <==> a.UnreadableArticle?
    ensures (r.Some? && r.value.Some?) <==>
              a.Article? && a.titleLink.Some? && Trim(a.titleLink.value.text) != [] && a.titleLink.value.href != []
    ensures r.Some? && r.value.Some? ==>
              && r.value.value.title == Trim(a.titleLink.value.text)
              && r.value.value.link == a.titleLink.value.href
              && r.value.value.date == DateOf(a.time)
              && r.value.value.author == AUTHOR
  {
    match a
    case UnreadableArticle => None
    case Article(titleLink, time) =>
      if titleLink.None? then Some(None)
      else
        var title := Trim(titleLink.value.text);
        var link := titleLink.value.href;
        var date := DateOf(time);
        if title == [] || link == [] then Some(None)
        else Some(Some(Post(title, link, date, AUTHOR)))
  }

  /** The post an article yields, treating a throwing article like a null
      one: the loop's `catch` skips it and moves on. */
  function ArticlePost(a: Article): Option<Post> {
    match ParseArticle(a)
    case Some(Some(p)) => Some(p)
    case _ => None
  }

  const ArticlePostOf: Article -> Option<Post> := a => ArticlePost(a)

  /** How many articles the loop visits: `Math.min(articles.length, 5)`. */
  function Window(n: nat): (w: nat)
    ensures w <= n && w <= MAX_POSTS_TO_CHECK
    ensures w == n || w == MAX_POSTS_TO_CHECK
  {
    if n < MAX_POSTS_TO_CHECK then n else MAX_POSTS_TO_CHECK
  }

  /** Specification of the scan: the parsed posts of the first articles, in
      page order, whose link is not in the stored list. */
  function NewPosts(articles: seq<Article>, seen: seq<string>): seq<Post> {
    Unseen(FilterMap(articles[..Window(|articles|)], ArticlePostOf), seen)
  }

  /** The bounded loop of `scrapeNewPosts`. Each article's seen check is a
      fresh `isPostSeen` read; `readOk` is the outcome of those reads. */
  method ScanArticles(articles: seq<Article>, kv: Kv, readOk: bool) returns (newPosts: seq<Post>)
    ensures newPosts == NewPosts(articles, GetSeenPosts(kv, readOk))
    ensures |newPosts| <= Window(|articles|)
  {
    var seen := GetSeenPosts(kv, readOk);
    var step := Then(ArticlePostOf, NotSeen(seen));
    var n := Window(|articles|);
    var window := articles[..n];
    newPosts := [];
    var i := 0;
    assert FilterMap(window[..0], step) == [];
    while i < n
      invariant 0 <= i <= n
      invariant newPosts == FilterMap(window[..i], step)
    {
      assert window[i] == articles[i];
      FilterMapStep(window, i, step);
      newPosts := VisitArticle(articles[i], kv, readOk, newPosts);
      i := i + 1;
    }
    assert window[..i] == window;
    FilterMapThen(window, ArticlePostOf, NotSeen(seen));
  }

  /** The body of the loop for one article: parse it, skip it when parsing
      throws or yields null, otherwise read the store and push the post when
      its link is not there. */
  method VisitArticle(article: Article, kv: Kv, readOk: bool, newPosts: seq<Post>) returns (out: seq<Post>)
    ensures out == newPosts + Kept(Then(ArticlePostOf, NotSeen(GetSeenPosts(kv, readOk)))(article))
  {
    var seen := GetSeenPosts(kv, readOk);
    assert Then(ArticlePostOf, NotSeen(seen))(article) ==
             if ArticlePost(article).Some? && ArticlePost(article).value.link !in seen then ArticlePost(article) else None;
    var parsed := ParseArticle(article);
    out := newPosts;
    if parsed.Some? && parsed.value.Some? {
      var alreadySeen := ReadIsPostSeen(kv, readOk, parsed.value.value.link);
      if !alreadySeen {
        out := newPosts + [parsed.value.value];
      }
    }
  }

  /** One `await PostStorage.isPostSeen(link)` call inside the loop. */
  method ReadIsPostSeen(kv: Kv, readOk: bool, link: string) returns (seen: bool)
    ensures seen <==> link in GetSeenPosts(kv, readOk)
  {
    seen := IsPostSeen(kv, readOk, link);
  }

  const SCRAPE_FAILED: string := "Failed to scrape posts: "

  /** `scrapeNewPosts()`: a non-OK status or a thrown error becomes the error
      `Failed to scrape posts: ...` and no posts. */
  function ScrapeNewPosts(fetch: PageFetch, kv: Kv, readOk: bool): (r: Result<seq<Post>>)
    ensures fetch.PageResponse? && StatusOk(fetch.status) ==>
              r == Ok(NewPosts(fetch.articles, GetSeenPosts(kv, readOk)))
    ensures fetch.PageResponse? && !StatusOk(fetch.status) ==>
              r == Err(SCRAPE_FAILED + ("HTTP error! status: " + NatToString(fetch.status)))
    ensures fetch.PageUnavailable? ==> r == Err(SCRAPE_FAILED + ErrorMessage(fetch.thrown))
  {
    match fetch
    case PageUnavailable(t) => Err(SCRAPE_FAILED + ErrorMessage(t))
    case PageResponse(status, articles) =>
      if !StatusOk(status) then
        Err(SCRAPE_FAILED + ErrorMessage(ErrorObject("HTTP error! status: " + NatToString(status))))
      else
        Ok(NewPosts(articles, GetSeenPosts(kv, readOk)))
  }

  /** A post is among the parsed candidates of `window` iff some article of
      the window parses to it. */
  lemma CandidatesExactly(window: seq<Article>)
    ensures forall p :: p in FilterMap(window, ArticlePostOf) <==>
              exists i :: 0 <= i < |window| && ArticlePost(window[i]) == Some(p)
  {
    var f := ArticlePostOf;
    var cands := FilterMap(window, f);
    var cidx := Picked(window, f);
    FilterMapSelects(window, f);
    forall p | p in cands
      ensures exists i :: 0 <= i < |window| && ArticlePost(window[i]) == Some(p)
    {
      var k :| 0 <= k < |cands| && cands[k] == p;
      assert f(window[cidx[k]]) == Some(p);
    }
    forall i, p | 0 <= i < |window| && ArticlePost(window[i]) == Some(p)
      ensures p in cands
    {
      assert f(window[i]) == Some(p);
      var k :| 0 <= k < |cidx| && cidx[k] == i;
      assert f(window[cidx[k]]) == Some(cands[k]);
    }
  }

  /** A post is reported iff it parses from one of the first five articles and
      its link is not stored; page order is kept. */
  lemma NewPostsExactly(articles: seq<Article>, seen: seq<string>)
    ensures |NewPosts(articles, seen)| <= Window(|articles|) <= MAX_POSTS_TO_CHECK
    ensures forall p :: p in NewPosts(articles, seen) <==>
              (p.link !in seen && exists i :: 0 <= i < Window(|articles|) && ArticlePost(articles[i]) == Some(p))
    ensures exists idx :: SelectedBy(idx, NewPosts(articles, seen), articles[..Window(|articles|)], Then(ArticlePostOf, NotSeen(seen)))
  {
    var window := articles[..Window(|articles|)];
    assert NewPosts(articles, seen) == Unseen(FilterMap(window, ArticlePostOf), seen);
    UnseenOfWindow(window, seen);
    assert forall i :: 0 <= i < |window| ==> window[i] == articles[i];
    FilterMapThen(window, ArticlePostOf, NotSeen(seen));
    FilterMapSelects(window, Then(ArticlePostOf, NotSeen(seen)));
  }

  /** Membership in the unseen candidates of a window, article by article. */
  lemma UnseenOfWindow(window: seq<Article>, seen: seq<string>)
    ensures forall p :: p in Unseen(FilterMap(window, ArticlePostOf), seen) <==>
              (p.link !in seen && exists i :: 0 <= i < |window| && ArticlePost(window[i]) == Some(p))
  {
    CandidatesExactly(window);
    UnseenExactly(FilterMap(window, ArticlePostOf), seen);
  }

  /** Articles after the fifth are never looked at. */
  lemma LaterArticlesIgnored(articles: seq<Article>, more: seq<Article>, seen: seq<string>)
    requires |articles| >= MAX_POSTS_TO_CHECK
    ensures NewPosts(articles + more, seen) == NewPosts(articles, seen)
  {
    assert (articles + more)[..MAX_POSTS_TO_CHECK] == articles[..MAX_POSTS_TO_CHECK];
  }

  /** An article whose inspection throws is skipped and the scan goes on: the
      result is that of the same window without it. */
  lemma UnreadableArticleSkipped(before: seq<Article>, after: seq<Article>, seen: seq<string>)
    requires |before| + 1 + |after| <= MAX_POSTS_TO_CHECK
    ensures NewPosts(before + [UnreadableArticle] + after, seen) == Unseen(FilterMap(before + after, ArticlePostOf), seen)
  {
    var a := before + [UnreadableArticle] + after;
    assert a[..Window(|a|)] == a;
    FilterMapSkip(before, UnreadableArticle, after, ArticlePostOf);
  }

  /** After the new posts' links are committed, scanning the same page again
      finds nothing new. */
  lemma RescanAfterCommitIsEmpty(articles: seq<Article>, seen: seq<string>)
    ensures NewPosts(articles, seen + Links(NewPosts(articles, seen))) == []
  {
    UnseenAfterCommit(FilterMap(articles[..Window(|articles|)], ArticlePostOf), seen);
  }
}

=== FILE: monitor.dfy ===
/** One run of the RSS monitor endpoint (`handler` in api/check-rhys.ts):
    scan the feed, alert on new posts, commit their links, answer with a
    fixed-shape report. Every external answer (the feed fetch, each store call,
    each alert channel) and every clock reading is an input of the run. */
module Monitor {
  import opened Wrappers
  import opened Text
  import opened Selection
  import opened Posts
  import opened Storage
  import opened RssFeed
  import opened Render
  import opened Alerts

  /** What the outside world answers during one run. */
  datatype RunIo = RunIo(
    fetch: FeedFetch,             // the feed request
    seenReadOk: bool,             // the seen-list read before the item loop
    commitReadOk: bool,           // the read inside `addSeenPosts`
    commitWriteOk: bool,          // the write inside `addSeenPosts`
    env: Env,                     // EMAIL_USER, EMAIL_PASS, EMAIL_TO, SLACK_WEBHOOK
    emailDelivery: EmailDelivery, // the mail transport's answer
    slackDelivery: SlackDelivery, // the webhook's answer
    timestamp: string)            // the run's start time, as formatted for the report

  /** `interface ApiResponse` as the handler fills it in. */
  datatype ApiResponse = ApiResponse(
    success: bool,
    timestamp: string,
    newPosts: nat,
    posts: seq<Post>,
    message: string,
    error: Option<string>,
    emailSent: bool,
    slackSent: bool)

  /** The HTTP status and JSON body of the reply, and the store afterwards. */
  datatype RunOutcome = RunOutcome(status: nat, body: ApiResponse, kv: Kv)

  /** This file's `sendEmailAlert`: `false` when unconfigured or when the
      transport throws, `true` when the mail is delivered. */
  function EmailSent(env: Env, delivery: EmailDelivery): (sent: bool)
    ensures sent <==> IsEmailConfigured(env) && delivery.Delivered?
  {
    if !IsEmailConfigured(env) then false
    else match delivery
      case Delivered => true
      case TransportFailed(_) => false
  }

  /** This file's `sendSlackAlert`: `false` when unconfigured, on a non-OK
      response or when the request throws. */
  function SlackSent(env: Env, delivery: SlackDelivery): (sent: bool)
    ensures sent <==> IsSlackConfigured(env) && delivery.Responded? && StatusOk(delivery.status)
  {
    if !IsSlackConfigured(env) then false
    else match delivery
      case Responded(status, _) => StatusOk(status)
      case RequestFailed(_) => false
  }

  /** The posts as this file's email body shows them: each date passed once
      more through the locale formatter. */
  function WithDisplayDates(posts: seq<Post>, renderDate: string -> string): (shown: seq<Post>)
    ensures |shown| == |posts|
    ensures forall i :: 0 <= i < |posts| ==>
              shown[i] == posts[i].(date := renderDate(posts[i].date))
  {
    seq(|posts|, i requires 0 <= i < |posts| => posts[i].(date := renderDate(posts[i].date)))
  }

  /** The mail this file's `sendEmailAlert` hands to the transport. */
  function RunEmail(env: Env, posts: seq<Post>, stamp: string, renderDate: string -> string): (m: Mail)
    requires IsEmailConfigured(env)
    ensures m.from == env.emailUser.value && m.to == Recipient(env)
    ensures m.subject == Subject(|posts|)
    ensures m.text == FormatEmailBody(WithDisplayDates(posts, renderDate), stamp)
    ensures forall i :: 0 <= i < |posts| ==> Contains(m.text, posts[i].title) && Contains(m.text, posts[i].link)
  {
    var shown := WithDisplayDates(posts, renderDate);
    var text := FormatEmailBody(shown, stamp);
    assert forall i :: 0 <= i < |posts| ==> Contains(text, posts[i].title) && Contains(text, posts[i].link) by {
      forall i | 0 <= i < |posts|
        ensures Contains(text, posts[i].title) && Contains(text, posts[i].link)
      {
        BodiesShowEveryPost(shown, stamp, Inflected, i);
      }
    }
    Mail(env.emailUser.value, Recipient(env), Subject(|posts|), text)
  }

  /** The text this file's `sendSlackAlert` posts: the count spelled `post` or
      `posts`. */
  function RunSlackText(posts: seq<Post>, stamp: string): (text: string)
    ensures forall i :: 0 <= i < |posts| ==> Contains(text, posts[i].title) && Contains(text, posts[i].link)
  {
    var text := FormatSlackMessage(posts, stamp, Inflected);
    assert forall i :: 0 <= i < |posts| ==> Contains(text, posts[i].title) && Contains(text, posts[i].link) by {
      forall i | 0 <= i < |posts|
        ensures Contains(text, posts[i].title) && Contains(text, posts[i].link)
      {
        BodiesShowEveryPost(posts, stamp, Inflected, i);
      }
    }
    text
  }

  function FoundMessage(n: nat): string {
    "Found " + NatToString(n) + " new Rhys Williams posts!"
  }

  const NONE_FOUND_MESSAGE: string := "No new Rhys Williams posts"
  const ERROR_MESSAGE: string := "Error occurred while checking RSS feed"

  /** The `try` block of the handler and its `catch`. Alerts and the commit
      happen only when there are new posts; the commit comes after both alert
      attempts, whatever they returned, and its failure is not reported. */
  function Handle(kv: Kv, io: RunIo, renderDate: string -> string): (out: RunOutcome)
    ensures out.body.timestamp == io.timestamp
    ensures out.body.success <==> io.fetch.FeedResponse? && StatusOk(io.fetch.status)
    ensures out.body.success ==>
              && out.status == 200
              && out.body.posts == NewPosts(io.fetch.entries, GetSeenPosts(kv, io.seenReadOk), renderDate)
              && out.body.newPosts == |out.body.posts|
              && out.body.error.None?
              && out.body.message == (if |out.body.posts| > 0 then FoundMessage(|out.body.posts|) else NONE_FOUND_MESSAGE)
              && (out.body.emailSent <==> |out.body.posts| > 0 && IsEmailConfigured(io.env) && io.emailDelivery.Delivered?)
              && (out.body.slackSent <==> |out.body.posts| > 0 && SlackSent(io.env, io.slackDelivery))
              && out.kv == (if |out.body.posts| > 0
                            then AddSeenPosts(kv, io.commitReadOk, io.commitWriteOk, Links(out.body.posts))
                            else kv)
    ensures !out.body.success ==>
              && out.status == 500
              && out.body.newPosts == 0 && out.body.posts == []
              && out.body.message == ERROR_MESSAGE
              && out.body.error == Some(ScrapeNewPosts(io.fetch, kv, io.seenReadOk, renderDate).error)
              && !out.body.emailSent && !out.body.slackSent
              && out.kv == kv
  {
    match ScrapeNewPosts(io.fetch, kv, io.seenReadOk, renderDate)
    case Err(e) =>
      RunOutcome(500, ApiResponse(false, io.timestamp, 0, [], ERROR_MESSAGE, Some(e), false, false), kv)
    case Ok(newPosts) =>
      if |newPosts| > 0 then
        var emailSent := EmailSent(io.env, io.emailDelivery);
        var slackSent := SlackSent(io.env, io.slackDelivery);
        var kv' := AddSeenPosts(kv, io.commitReadOk, io.commitWriteOk, Links(newPosts));
        RunOutcome(200, ApiResponse(true, io.timestamp, |newPosts|, newPosts, FoundMessage(|newPosts|), None,
                                    emailSent, slackSent), kv')
      else
        RunOutcome(200, ApiResponse(true, io.timestamp, 0, [], NONE_FOUND_MESSAGE, None, false, false), kv)
  }

  /** Every store call of the run succeeds. */
  predicate StoreHealthy(io: RunIo) {
    io.seenReadOk && io.commitReadOk && io.commitWriteOk
  }

  /** After a run against a healthy store, a second run over the same feed
      reports no new post, sends no alert and leaves the store as it is. */
  lemma SecondRunFindsNothing(kv: Kv, io1: RunIo, io2: RunIo, renderDate: string -> string)
    requires StoreHealthy(io1) && io2.seenReadOk
    requires io1.fetch.FeedResponse? && StatusOk(io1.fetch.status) && io2.fetch == io1.fetch
    ensures var first := Handle(kv, io1, renderDate);
            var second := Handle(first.kv, io2, renderDate);
            && second.body.success && second.body.newPosts == 0 && second.body.posts == []
            && !second.body.emailSent && !second.body.slackSent
            && second.kv == first.kv
  {
    var entries := io1.fetch.entries;
    var seen := GetSeenPosts(kv, true);
    var first := Handle(kv, io1, renderDate);
    var found := NewPosts(entries, seen, renderDate);
    if |found| > 0 {
      assert GetSeenPosts(first.kv, true) == seen + Links(found);
      RescanAfterCommitIsEmpty(entries, seen, renderDate);
    }
  }

  /** If the commit's write fails, the next run over the same feed reports the
      same posts again: delivery is at least once. */
  lemma LostCommitRealerts(kv: Kv, io1: RunIo, io2: RunIo, renderDate: string -> string)
    requires !io1.commitWriteOk && io1.seenReadOk && io2.seenReadOk
    requires io2.fetch == io1.fetch
    ensures Handle(kv, io2, renderDate).body.posts == Handle(kv, io1, renderDate).body.posts
    ensures Handle(kv, io1, renderDate).kv == kv
  {
  }

  /** This file's boolean flags against the alert service's result list: a
      flag is `true` exactly when the service reports a successful result for
      that channel, and an unconfigured channel is `false` here where the
      service leaves it out. */
  lemma FlagsAgreeWithAlertService(env: Env, e: EmailDelivery, s: SlackDelivery)
    ensures var results := SendAlerts(env, e, s);
            && (EmailSent(env, e) <==> ResultFor(results, Email).Some? && ResultFor(results, Email).value.success)
            && (SlackSent(env, s) <==> ResultFor(results, Slack).Some? && ResultFor(results, Slack).value.success)
            && (!IsEmailConfigured(env) ==> !EmailSent(env, e) && ResultFor(results, Email).None?)
            && (!IsSlackConfigured(env) ==> !SlackSent(env, s) && ResultFor(results, Slack).None?)
  {
    ChannelsIndependent(env, e, e, s, s);
  }

  /** A feed with one new post by the author, one already-seen post by the
      author and one post by someone else reports exactly the first, alerts on
      it, and the store then holds the old list followed by its link. */
  lemma ThreeEntryFeed(kv: Kv, io: RunIo, unseenEntry: Entry, seenEntry: Entry, otherEntry: Entry, renderDate: string -> string)
    requires StoreHealthy(io)
    requires io.fetch == FeedResponse(200, [unseenEntry, seenEntry, otherEntry])
    requires Qualifies(unseenEntry) && Trim(unseenEntry.link.value) !in GetSeenPosts(kv, true)
    requires Qualifies(seenEntry) && Trim(seenEntry.link.value) in GetSeenPosts(kv, true)
    requires !Qualifies(otherEntry)
    ensures var out := Handle(kv, io, renderDate);
            && out.body.success && out.body.newPosts == 1
            && out.body.posts == [Candidate(unseenEntry, renderDate).value]
            && out.kv[SEEN_POSTS_KEY] == GetSeenPosts(kv, true) + [Trim(unseenEntry.link.value)]
  {
    var seen := GetSeenPosts(kv, true);
    var p1 := Candidate(unseenEntry, renderDate).value;
    OneNewOfThree(unseenEntry, seenEntry, otherEntry, seen, renderDate);
    assert Links([p1]) == [p1.link];
  }
}

=== FILE: posts.dfy ===
/** The post record every variant of the monitor produces, and the
    classification step that decides which candidate posts are new: a post is
    new when its link, compared exactly as extracted, is not in the seen list
    loaded before the scan. */
module Posts {
  import opened Wrappers
  import opened Selection

  /** `interface Post` (title, link, date, author). */
  datatype Post = Post(title: string, link: string, date: string, author: string)

  /** The author name every scanned post is attributed to. */
  const AUTHOR: string := "Rhys Williams"

  /** `posts.map((p) => p.link)`. */
  function Links(posts: seq<Post>): (links: seq<string>)
    ensures |links| == |posts|
    ensures forall i :: 0 <= i < |posts| ==> links[i] == posts[i].link
  {
    seq(|posts|, i requires 0 <= i < |posts| => posts[i].link)
  }

  /** One step of the seen check: keep the post unless its link is listed. */
  function NotSeen(seen: seq<string>): Post -> Option<Post> {
    (p: Post) => if p.link in seen then None else Some(p)
  }

  /** The candidates whose link is not in `seen`, in candidate order. The seen
      list is fixed for the whole scan. */
  function Unseen(posts: seq<Post>, seen: seq<string>): seq<Post> {
    FilterMap(posts, NotSeen(seen))
  }

  /** The new posts are exactly the candidates with an unseen link, taken in
      candidate order. */
  lemma UnseenExactly(posts: seq<Post>, seen: seq<string>)
    ensures forall p :: p in Unseen(posts, seen) <==> p in posts && p.link !in seen
    ensures exists idx :: SelectedBy(idx, Unseen(posts, seen), posts, NotSeen(seen))
  {
    var r := Unseen(posts, seen);
    var idx := Picked(posts, NotSeen(seen));
    FilterMapSelects(posts, NotSeen(seen));
    forall p | p in r
      ensures p in posts && p.link !in seen
    {
      var k :| 0 <= k < |r| && r[k] == p;
      assert NotSeen(seen)(posts[idx[k]]) == Some(p);
    }
    forall p | p in posts && p.link !in seen
      ensures p in r
    {
      var i :| 0 <= i < |posts| && posts[i] == p;
      assert NotSeen(seen)(posts[i]).Some?;
      var k :| 0 <= k < |idx| && idx[k] == i;
      assert NotSeen(seen)(posts[idx[k]]) == Some(r[k]);
    }
  }

  /** Classifying the new posts again against the same seen list changes
      nothing. */
  lemma UnseenIdempotent(posts: seq<Post>, seen: seq<string>)
    ensures Unseen(Unseen(posts, seen), seen) == Unseen(posts, seen)
  {
    var r := Unseen(posts, seen);
    UnseenExactly(posts, seen);
    forall i | 0 <= i < |r|
      ensures NotSeen(seen)(r[i]) == Some(r[i])
    {
      assert r[i] in r;
    }
    FilterMapKeepsAll(r, NotSeen(seen));
  }

  /** Once the new posts' links are appended to the seen list, classifying the
      same candidates again yields no new post. */
  lemma UnseenAfterCommit(posts: seq<Post>, seen: seq<string>)
    ensures Unseen(posts, seen + Links(Unseen(posts, seen))) == []
  {
    var r := Unseen(posts, seen);
    var seen' := seen + Links(r);
    UnseenExactly(posts, seen);
    forall i | 0 <= i < |posts|
      ensures NotSeen(seen')(posts[i]).None?
    {
      var p := posts[i];
      if p.link !in seen {
        assert p in r;
        var k :| 0 <= k < |r| && r[k] == p;
        assert Links(r)[k] == p.link;
      }
      assert p.link in seen';
    }
    FilterMapNone(posts, NotSeen(seen'));
  }

  /** One scanned item twice, yielding an unseen post: the post is new both
      times. */
  lemma UnseenTwice<A>(x: A, f: A -> Option<Post>, seen: seq<string>)
    requires f(x).Some? && f(x).value.link !in seen
    ensures Unseen(FilterMap([x, x], f), seen) == [f(x).value, f(x).value]
  {
    var p := f(x).value;
    FilterMapSingle(x, f);
    FilterMapAppend([x], [x], f);
    assert [x] + [x] == [x, x];
    assert FilterMap([x, x], f) == [p, p];
    FilterMapSingle(p, NotSeen(seen));
    FilterMapAppend([p], [p], NotSeen(seen));
    assert [p] + [p] == [p, p];
  }

  /** Three scanned items, of which the first yields an unseen post, the
      second a seen one and the third nothing: only the first is new. */
  lemma UnseenOfThree<A>(x: A, y: A, z: A, f: A -> Option<Post>, seen: seq<string>)
    requires f(x).Some? && f(x).value.link !in seen
    requires f(y).Some? && f(y).value.link in seen
    requires f(z).None?
    ensures Unseen(FilterMap([x, y, z], f), seen) == [f(x).value]
  {
    var p1 := f(x).value;
    var p2 := f(y).value;
    FilterMapThree(x, y, z, f);
    assert FilterMap([x, y, z], f) == [p1, p2];
    FilterMapSingle(p1, NotSeen(seen));
    FilterMapSingle(p2, NotSeen(seen));
    FilterMapAppend([p1], [p2], NotSeen(seen));
    assert [p1] + [p2] == [p1, p2];
  }

  /** The seen list is not updated during the scan, so a post whose link is
      unseen is reported as many times as it occurs among the candidates. */
  lemma {:induction false} UnseenKeepsRepeats(posts: seq<Post>, seen: seq<string>, p: Post)
    requires p.link !in seen
    ensures multiset(Unseen(posts, seen))[p] == multiset(posts)[p]
    decreases |posts|
  {
    if |posts| > 0 {
      var n := |posts| - 1;
      UnseenKeepsRepeats(posts[..n], seen, p);
      assert posts == posts[..n] + [posts[n]];
    }
  }
}

=== FILE: render.dfy ===
/** The plain-text alert bodies: a header with the number of posts, one
    numbered block per post in input order, and a footer carrying the time the
    alert was sent. The time is a parameter (`stamp`): reading the clock and
    formatting it for a locale are outside the model. */
module Render {
  import opened Text
  import opened Posts

  /** The two bodies differ in their per-post markup. */
  datatype Style = EmailStyle | SlackStyle

  /** How a Slack header spells the count: `post(s)` always (utils/alerts.ts),
      or `post` / `posts` by number (api/check-rhys.ts). */
  datatype Wording = Parenthesised | Inflected

  /** The word after the count. With `Inflected`, the plural is used exactly
      when there is more than one post, so a count of 0 reads `post`. */
  function PostsWord(n: nat, w: Wording): (word: string)
    ensures w.Parenthesised? ==> word == "post(s)"
    ensures w.Inflected? ==> (word == "posts" <==> n > 1) && (word == "post" <==> n <= 1)
  {
    match w
    case Parenthesised => "post(s)"
    case Inflected => if n > 1 then "posts" else "post"
  }

  const EMAIL_LEAD: string := "New horse racing tips from Rhys Williams ("
  const SLACK_LEAD: string := "\U{1F3C7} *New Rhys Williams Tips* ("

  /** The count, the word after it and the end of the header line. */
  function CountPhrase(n: nat, word: string): string {
    NatToString(n) + (" " + word + "):\n\n")
  }

  function EmailHeader(n: nat): string {
    EMAIL_LEAD + CountPhrase(n, "post(s)")
  }

  function SlackHeader(n: nat, w: Wording): string {
    SLACK_LEAD + CountPhrase(n, PostsWord(n, w))
  }

  /** The block for the post numbered `number`. */
  function Block(style: Style, number: nat, p: Post): string {
    match style
    case EmailStyle =>
      NatToString(number) + ". " + p.title + "\n"
      + "   \U{1F4C5} " + p.date + "\n"
      + "   \U{1F517} " + p.link + "\n\n"
    case SlackStyle =>
      NatToString(number) + ". *" + p.title + "*\n"
      + "   \U{1F4C5} " + p.date + "\n"
      + "   \U{1F517} <" + p.link + "|Read More>\n\n"
  }

  /** The blocks of `posts`, numbered from `first` on, in input order. */
  function Blocks(style: Style, posts: seq<Post>, first: nat): (blocks: seq<string>)
    ensures |blocks| == |posts|
    ensures forall i :: 0 <= i < |posts| ==> blocks[i] == Block(style, first + i, posts[i])
  {
    seq(|posts|, i requires 0 <= i < |posts| => Block(style, first + i, posts[i]))
  }

  /** The strings of `parts` one after another. */
  function Join(parts: seq<string>): string
    decreases |parts|
  {
    if parts == [] then [] else parts[0] + Join(parts[1..])
  }

  function Items(style: Style, posts: seq<Post>, first: nat): string {
    Join(Blocks(style, posts, first))
  }

  function EmailFooter(stamp: string): string {
    "Happy betting! \U{1F40E}\n" + "Alert sent at: " + stamp
  }

  function SlackFooter(stamp: string): string {
    "\U{1F916} _Alert sent at " + stamp + "_"
  }

  /** `formatEmailBody(posts)`: the header with the count, every post's title
      and link, then the footer with the time of sending. */
  function FormatEmailBody(posts: seq<Post>, stamp: string): (body: string)
    ensures |EmailHeader(|posts|)| <= |body| && body[..|EmailHeader(|posts|)|] == EmailHeader(|posts|)
    ensures forall i :: 0 <= i < |posts| ==> Contains(body, posts[i].title) && Contains(body, posts[i].link)
  {
    var head := EmailHeader(|posts|);
    var body := head + Items(EmailStyle, posts, 1) + EmailFooter(stamp);
    assert body[..|head|] == head;
    assert forall i :: 0 <= i < |posts| ==> Contains(body, posts[i].title) && Contains(body, posts[i].link) by {
      forall i | 0 <= i < |posts|
        ensures Contains(body, posts[i].title) && Contains(body, posts[i].link)
      {
        FramedItemsShowPost(head, EmailStyle, posts, EmailFooter(stamp), i);
      }
    }
    body
  }

  /** `formatSlackMessage(posts)`: the header with the count, every post's
      title and link, then the footer with the time of sending. */
  function FormatSlackMessage(posts: seq<Post>, stamp: string, w: Wording): (text: string)
    ensures |SlackHeader(|posts|, w)| <= |text| && text[..|SlackHeader(|posts|, w)|] == SlackHeader(|posts|, w)
    ensures forall i :: 0 <= i < |posts| ==> Contains(text, posts[i].title) && Contains(text, posts[i].link)
  {
    var head := SlackHeader(|posts|, w);
    var text := head + Items(SlackStyle, posts, 1) + SlackFooter(stamp);
    assert text[..|head|] == head;
    assert forall i :: 0 <= i < |posts| ==> Contains(text, posts[i].title) && Contains(text, posts[i].link) by {
      forall i | 0 <= i < |posts|
        ensures Contains(text, posts[i].title) && Contains(text, posts[i].link)
      {
        FramedItemsShowPost(head, SlackStyle, posts, SlackFooter(stamp), i);
      }
    }
    text
  }

  lemma {:induction false} JoinAppend(a: seq<string>, b: seq<string>)
    ensures Join(a + b) == Join(a) + Join(b)
    decreases |a|
  {
    if a == [] {
      assert a + b == b;
    } else {
      assert (a + b)[1..] == a[1..] + b;
      JoinAppend(a[1..], b);
    }
  }

  /** Rendering a list in two parts: numbering continues where the first part
      stopped. */
  lemma ItemsAppend(style: Style, a: seq<Post>, b: seq<Post>, first: nat)
    ensures Items(style, a + b, first) == Items(style, a, first) + Items(style, b, first + |a|)
  {
    assert Blocks(style, a + b, first) == Blocks(style, a, first) + Blocks(style, b, first + |a|);
    JoinAppend(Blocks(style, a, first), Blocks(style, b, first + |a|));
  }

  /** Part `i` of a join sits between the join of the parts before it and the
      join of the parts after it. */
  lemma JoinAt(parts: seq<string>, i: nat)
    requires i < |parts|
    ensures Join(parts) == Join(parts[..i]) + parts[i] + Join(parts[i + 1..])
  {
    assert parts == parts[..i] + parts[i..];
    JoinAppend(parts[..i], parts[i..]);
    assert parts[i..][1..] == parts[i + 1..];
  }

  /** Post `i` is rendered as block number `i + 1`, after the blocks of the
      posts before it and before the blocks of the posts after it. */
  lemma ItemAt(style: Style, posts: seq<Post>, i: nat)
    requires i < |posts|
    ensures Items(style, posts, 1) ==
              Items(style, posts[..i], 1) + Block(style, i + 1, posts[i]) + Items(style, posts[i + 1..], i + 2)
  {
    var blocks := Blocks(style, posts, 1);
    JoinAt(blocks, i);
    BlocksSlice(style, posts, 1, 0, i);
    BlocksSlice(style, posts, 1, i + 1, |posts|);
    assert blocks[..i] == blocks[0..i] && posts[..i] == posts[0..i];
    assert blocks[i + 1..] == blocks[i + 1..|posts|] && posts[i + 1..] == posts[i + 1..|posts|];
  }

  /** A run of consecutive blocks is the blocks of the matching run of posts,
      numbered from where the run starts. */
  lemma BlocksSlice(style: Style, posts: seq<Post>, first: nat, lo: nat, hi: nat)
    requires lo <= hi <= |posts|
    ensures Blocks(style, posts, first)[lo..hi] == Blocks(style, posts[lo..hi], first + lo)
  {
    var a := Blocks(style, posts, first)[lo..hi];
    var b := Blocks(style, posts[lo..hi], first + lo);
    forall k | 0 <= k < hi - lo
      ensures a[k] == b[k]
    {
      assert a[k] == Block(style, first + lo + k, posts[lo + k]);
    }
  }

  /** `x` occurs in `a + x + b` right after `a`. */
  lemma OccursInMiddle(a: string, x: string, b: string)
    ensures OccursAt(a + x + b, x, |a|)
  {
    assert (a + x + b)[|a|..|a| + |x|] == x;
  }

  /** A block shows its post's title and link. */
  lemma BlockShowsPost(style: Style, number: nat, p: Post)
    ensures Contains(Block(style, number, p), p.title)
    ensures Contains(Block(style, number, p), p.link)
  {
    var num := NatToString(number);
    match style
    case EmailStyle =>
      var pre := num + ". ";
      var mid := "\n" + "   \U{1F4C5} " + p.date + "\n" + "   \U{1F517} ";
      assert Block(style, number, p) == pre + p.title + (mid + p.link + "\n\n");
      OccursInMiddle(pre, p.title, mid + p.link + "\n\n");
      assert Block(style, number, p) == (pre + p.title + mid) + p.link + "\n\n";
      OccursInMiddle(pre + p.title + mid, p.link, "\n\n");
    case SlackStyle =>
      var pre := num + ". *";
      var mid := "*\n" + "   \U{1F4C5} " + p.date + "\n" + "   \U{1F517} <";
      assert Block(style, number, p) == pre + p.title + (mid + p.link + "|Read More>\n\n");
      OccursInMiddle(pre, p.title, mid + p.link + "|Read More>\n\n");
      assert Block(style, number, p) == (pre + p.title + mid) + p.link + "|Read More>\n\n";
      OccursInMiddle(pre + p.title + mid, p.link, "|Read More>\n\n");
  }

  /** A pattern inside a piece of a concatenation occurs in the whole. */
  lemma ContainsInMiddle(a: string, x: string, b: string, pat: string)
    requires Contains(x, pat)
    ensures Contains(a + x + b, pat)
  {
    var i: nat :| OccursAt(x, pat, i);
    assert (a + x + b)[|a| + i..|a| + i + |pat|] == x[i..i + |pat|];
    assert OccursAt(a + x + b, pat, |a| + i);
  }

  /** A body made of any header, the blocks and any footer shows every post's
      title and link. */
  lemma FramedItemsShowPost(head: string, style: Style, posts: seq<Post>, foot: string, i: nat)
    requires i < |posts|
    ensures Contains(head + Items(style, posts, 1) + foot, posts[i].title)
    ensures Contains(head + Items(style, posts, 1) + foot, posts[i].link)
  {
    var p := posts[i];
    var x := Items(style, posts[..i], 1);
    var b := Block(style, i + 1, p);
    var z := Items(style, posts[i + 1..], i + 2);
    assert Items(style, posts, 1) == x + b + z by {
      ItemAt(style, posts, i);
    }
    assert Contains(b, p.title) && Contains(b, p.link) by {
      BlockShowsPost(style, i + 1, p);
    }
    ContainsInMiddle(x, b, z, p.title);
    ContainsInMiddle(head, x + b + z, foot, p.title);
    ContainsInMiddle(x, b, z, p.link);
    ContainsInMiddle(head, x + b + z, foot, p.link);
  }

  /** Every post's title and link appear in both alert bodies. */
  lemma BodiesShowEveryPost(posts: seq<Post>, stamp: string, w: Wording, i: nat)
    requires i < |posts|
    ensures Contains(FormatEmailBody(posts, stamp), posts[i].title)
    ensures Contains(FormatEmailBody(posts, stamp), posts[i].link)
    ensures Contains(FormatSlackMessage(posts, stamp, w), posts[i].title)
    ensures Contains(FormatSlackMessage(posts, stamp, w), posts[i].link)
  {
    FramedItemsShowPost(EmailHeader(|posts|), EmailStyle, posts, EmailFooter(stamp), i);
    FramedItemsShowPost(SlackHeader(|posts|, w), SlackStyle, posts, SlackFooter(stamp), i);
  }

  /** A decimal number followed by a non-digit can be read off unambiguously. */
  lemma NumberThenText(n: nat, m: nat, t: string, u: string)
    requires NatToString(n) + t == NatToString(m) + u
    requires |t| > 0 && !IsDigit(t[0]) && |u| > 0 && !IsDigit(u[0])
    ensures n == m
  {
    var a := NatToString(n);
    var b := NatToString(m);
    var k := if |a| <= |b| then |a| else |b|;
    assert (a + t)[k] == (b + u)[k];
    assert |a| == |b|;
    assert a == (a + t)[..|a|] == (b + u)[..|b|] == b;
    NatToStringInjective(n, m);
  }

  /** The header states the count: two headers are equal only for equal
      counts. */
  lemma HeadersDetermineCount(n: nat, m: nat, w: Wording)
    ensures EmailHeader(n) == EmailHeader(m) ==> n == m
    ensures SlackHeader(n, w) == SlackHeader(m, w) ==> n == m
  {
    if EmailHeader(n) == EmailHeader(m) {
      assert CountPhrase(n, "post(s)") == EmailHeader(n)[|EMAIL_LEAD|..];
      assert CountPhrase(m, "post(s)") == EmailHeader(m)[|EMAIL_LEAD|..];
      NumberThenText(n, m, " " + "post(s)" + "):\n\n", " " + "post(s)" + "):\n\n");
    }
    if SlackHeader(n, w) == SlackHeader(m, w) {
      assert CountPhrase(n, PostsWord(n, w)) == SlackHeader(n, w)[|SLACK_LEAD|..];
      assert CountPhrase(m, PostsWord(m, w)) == SlackHeader(m, w)[|SLACK_LEAD|..];
      NumberThenText(n, m, " " + PostsWord(n, w) + "):\n\n", " " + PostsWord(m, w) + "):\n\n");
    }
  }
}

=== FILE: rss_feed.dfy ===
/** The RSS variant of the scan (`scrapeNewPosts` in api/check-rhys.ts): from
    the parsed `<item>` elements of the feed to the list of new posts by the
    author. Fetching and XML parsing are outside the model; the feed arrives as
    a status code and a list of already-parsed entries. */
module RssFeed {
  import opened Wrappers
  import opened Text
  import opened Selection
  import opened Posts
  import opened Storage

  /** One `<item>`: the text content of its `<title>`, `<link>` and `<pubDate>`
      children when the child exists, and the text of each `<category>`. */
  datatype Entry = Entry(
    title: Option<string>,
    link: Option<string>,
    pubDate: Option<string>,
    categories: seq<string>)

  /** The outcome of fetching the feed: a response with its status code and
      parsed items, or a thrown error (network failure, unreadable body, XML
      that does not parse). */
  datatype FeedFetch =
    | FeedResponse(status: nat, entries: seq<Entry>)
    | FeedUnavailable(thrown: Thrown)

  const AUTHOR_NEEDLE: string := "rhys williams"

  /** `text.toLowerCase().includes("rhys williams")`. */
  predicate MentionsAuthor(text: string) {
    Contains(ToLower(text), AUTHOR_NEEDLE)
  }

  /** Both a title and a link child exist and neither is blank once trimmed. */
  predicate WellFormed(e: Entry) {
    && e.title.Some? && e.link.Some?
    && Trim(e.title.value) != [] && Trim(e.link.value) != []
  }

  /** `isRhysPost`: some category mentions the author, or the trimmed title
      does. */
  predicate ByAuthor(e: Entry)
    requires e.title.Some?
  {
    (exists c :: c in e.categories && MentionsAuthor(c)) || MentionsAuthor(Trim(e.title.value))
  }

  /** The entry survives the title/link checks and the author filter. */
  predicate Qualifies(e: Entry) {
    WellFormed(e) && ByAuthor(e)
  }

  /** `dateElem?.textContent?.trim() || ""`. */
  function PubDateText(e: Entry): string {
    match e.pubDate
    case Some(d) => Trim(d)
    case None => ""
  }

  /** The post an entry yields before the seen check, if any. `renderDate`
      stands for `parseRSSDate`, whose locale formatting is library behaviour. */
  function Candidate(e: Entry, renderDate: string -> string): (r: Option<Post>)
    ensures r.Some? <==> Qualifies(e)
    ensures r.Some? ==> r.value.title == Trim(e.title.value) && r.value.link == Trim(e.link.value)
    ensures r.Some? ==> r.value.author == AUTHOR && r.value.date == renderDate(PubDateText(e))
  {
    if e.title.None? || e.link.None? then None
    else
      var title := Trim(e.title.value);
      var link := Trim(e.link.value);
      if title == [] || link == [] then None
      else if !((exists c :: c in e.categories && MentionsAuthor(c)) || MentionsAuthor(title)) then None
      else Some(Post(title, link, renderDate(PubDateText(e)), AUTHOR))
  }

  function CandidateOf(renderDate: string -> string): Entry -> Option<Post> {
    e => Candidate(e, renderDate)
  }

  /** What one iteration of the item loop pushes: the candidate, if its link
      is not in the seen list loaded before the loop. */
  function ItemStep(seen: seq<string>, renderDate: string -> string): Entry -> Option<Post> {
    Then(CandidateOf(renderDate), NotSeen(seen))
  }

  /** The specification of the scan as two stages: author-filtered candidates
      in feed order, then the seen check. */
  function NewPosts(entries: seq<Entry>, seen: seq<string>, renderDate: string -> string): seq<Post> {
    Unseen(FilterMap(entries, CandidateOf(renderDate)), seen)
  }

  /** The item loop of `scrapeNewPosts`, one pass with early `continue`s. It
      computes the two-stage specification. */
  method ScanItems(entries: seq<Entry>, seen: seq<string>, renderDate: string -> string)
    returns (newPosts: seq<Post>)
    ensures newPosts == NewPosts(entries, seen, renderDate)
  {
    newPosts := [];
    var i := 0;
    while i < |entries|
      invariant 0 <= i <= |entries|
      invariant newPosts == FilterMap(entries[..i], ItemStep(seen, renderDate))
    {
      var item := entries[i];
      FilterMapStep(entries, i, ItemStep(seen, renderDate));
      i := i + 1;
      if item.title.None? || item.link.None? {
        continue;
      }
      var title := Trim(item.title.value);
      var link := Trim(item.link.value);
      if title == [] || link == [] {
        continue;
      }
      var isRhysPost := (exists c :: c in item.categories && MentionsAuthor(c)) || MentionsAuthor(title);
      if !isRhysPost {
        continue;
      }
      var post := Post(title, link, renderDate(PubDateText(item)), AUTHOR);
      if link !in seen {
        newPosts := newPosts + [post];
      }
    }
    assert entries[..i] == entries;
    FilterMapThen(entries, CandidateOf(renderDate), NotSeen(seen));
  }

  const FETCH_FAILED: string := "Failed to fetch RSS feed: "

  /** `scrapeNewPosts()`: a non-OK status or a thrown error becomes the error
      `Failed to fetch RSS feed: ...` and no posts; otherwise the seen list is
      read once (failing soft) and the items are scanned against it. */
  function ScrapeNewPosts(fetch: FeedFetch, kv: Kv, readOk: bool, renderDate: string -> string)
    : (r: Result<seq<Post>>)
    ensures fetch.FeedResponse? && StatusOk(fetch.status) ==>
              r == Ok(NewPosts(fetch.entries, GetSeenPosts(kv, readOk), renderDate))
    ensures fetch.FeedResponse? && !StatusOk(fetch.status) ==>
              r == Err(FETCH_FAILED + ("HTTP error! status: " + NatToString(fetch.status)))
    ensures fetch.FeedUnavailable? ==>
              r == Err(FETCH_FAILED + ErrorMessage(fetch.thrown))
  {
    match fetch
    case FeedUnavailable(t) => Err(FETCH_FAILED + ErrorMessage(t))
    case FeedResponse(status, entries) =>
      if !StatusOk(status) then
        Err(FETCH_FAILED + ErrorMessage(ErrorObject("HTTP error! status: " + NatToString(status))))
      else
        Ok(NewPosts(entries, GetSeenPosts(kv, readOk), renderDate))
  }

  /** Every author-filtered candidate comes from some entry of the feed. */
  lemma CandidatesSound(entries: seq<Entry>, renderDate: string -> string)
    ensures forall p :: p in FilterMap(entries, CandidateOf(renderDate)) ==>
              exists i :: 0 <= i < |entries| && Candidate(entries[i], renderDate) == Some(p)
  {
    var f := CandidateOf(renderDate);
    var cands := FilterMap(entries, f);
    var cidx := Picked(entries, f);
    FilterMapSelects(entries, f);
    forall p | p in cands
      ensures exists i :: 0 <= i < |entries| && Candidate(entries[i], renderDate) == Some(p)
    {
      var k :| 0 <= k < |cands| && cands[k] == p;
      assert f(entries[cidx[k]]) == Some(p);
    }
  }

  /** Every entry that yields a candidate contributes it. */
  lemma CandidatesComplete(entries: seq<Entry>, renderDate: string -> string)
    ensures forall i :: 0 <= i < |entries| && Candidate(entries[i], renderDate).Some? ==>
              Candidate(entries[i], renderDate).value in FilterMap(entries, CandidateOf(renderDate))
  {
    var f := CandidateOf(renderDate);
    var cands := FilterMap(entries, f);
    var cidx := Picked(entries, f);
    FilterMapSelects(entries, f);
    forall i | 0 <= i < |entries| && Candidate(entries[i], renderDate).Some?
      ensures Candidate(entries[i], renderDate).value in cands
    {
      assert f(entries[i]).Some?;
      var k :| 0 <= k < |cidx| && cidx[k] == i;
      assert cands[k] == Candidate(entries[i], renderDate).value;
    }
  }

  /** The new posts are exactly the qualifying entries whose trimmed link is
      not in the seen list, in feed order; each is attributed to the author and
      has a non-blank title and link. */
  lemma NewPostsExactly(entries: seq<Entry>, seen: seq<string>, renderDate: string -> string)
    ensures forall p :: p in NewPosts(entries, seen, renderDate) ==>
              p.author == AUTHOR && p.title != [] && p.link != [] && p.link !in seen
    ensures forall p :: p in NewPosts(entries, seen, renderDate) ==>
              exists i :: 0 <= i < |entries| && Qualifies(entries[i]) && Candidate(entries[i], renderDate) == Some(p)
    ensures forall i :: 0 <= i < |entries| && Qualifies(entries[i]) && Trim(entries[i].link.value) !in seen ==>
              Candidate(entries[i], renderDate).value in NewPosts(entries, seen, renderDate)
    ensures exists idx :: SelectedBy(idx, NewPosts(entries, seen, renderDate), entries, ItemStep(seen, renderDate))
  {
    var cands := FilterMap(entries, CandidateOf(renderDate));
    var r := NewPosts(entries, seen, renderDate);
    CandidatesSound(entries, renderDate);
    CandidatesComplete(entries, renderDate);
    UnseenExactly(cands, seen);
    forall p | p in r
      ensures p.author == AUTHOR && p.title != [] && p.link != [] && p.link !in seen
      ensures exists i :: 0 <= i < |entries| && Qualifies(entries[i]) && Candidate(entries[i], renderDate) == Some(p)
    {
      assert p in cands;
      var i :| 0 <= i < |entries| && Candidate(entries[i], renderDate) == Some(p);
    }
    forall i | 0 <= i < |entries| && Qualifies(entries[i]) && Trim(entries[i].link.value) !in seen
      ensures Candidate(entries[i], renderDate).value in r
    {
      assert Candidate(entries[i], renderDate).value in cands;
    }
    FilterMapThen(entries, CandidateOf(renderDate), NotSeen(seen));
    FilterMapSelects(entries, ItemStep(seen, renderDate));
  }

  /** An entry that fails the title/link checks or the author filter has no
      effect on the result wherever it stands in the feed. */
  lemma SkippedEntryIsInert(before: seq<Entry>, e: Entry, after: seq<Entry>, seen: seq<string>, renderDate: string -> string)
    requires !Qualifies(e)
    ensures NewPosts(before + [e] + after, seen, renderDate) == NewPosts(before + after, seen, renderDate)
  {
    var f := CandidateOf(renderDate);
    assert f(e) == None;
    FilterMapSkip(before, e, after, f);
  }

  /** Without categories the title alone decides: an entry yields a post
      exactly when its trimmed title and link are non-blank and the title
      mentions the author. */
  lemma TitleAloneDecides(title: string, link: string, pubDate: Option<string>, renderDate: string -> string)
    ensures Candidate(Entry(Some(title), Some(link), pubDate, []), renderDate).Some? <==>
              Trim(title) != [] && Trim(link) != [] && MentionsAuthor(Trim(title))
  {
  }

  /** The seen list is read once before the loop and not updated inside it:
      an unseen qualifying entry that occurs twice in one feed is reported
      twice. */
  lemma RepeatedEntryReportedTwice(e: Entry, seen: seq<string>, renderDate: string -> string)
    requires Qualifies(e) && Trim(e.link.value) !in seen
    ensures var p := Candidate(e, renderDate).value;
            NewPosts([e, e], seen, renderDate) == [p, p]
  {
    var f := CandidateOf(renderDate);
    assert f(e).Some? && f(e).value.link !in seen;
    UnseenTwice(e, f, seen);
  }

  /** A feed of one unseen qualifying entry, one seen qualifying entry and one
      that does not qualify yields just the first entry's post. */
  lemma OneNewOfThree(unseenEntry: Entry, seenEntry: Entry, otherEntry: Entry, seen: seq<string>, renderDate: string -> string)
    requires Qualifies(unseenEntry) && Trim(unseenEntry.link.value) !in seen
    requires Qualifies(seenEntry) && Trim(seenEntry.link.value) in seen
    requires !Qualifies(otherEntry)
    ensures NewPosts([unseenEntry, seenEntry, otherEntry], seen, renderDate) == [Candidate(unseenEntry, renderDate).value]
  {
    var f := CandidateOf(renderDate);
    assert f(unseenEntry).Some? && f(unseenEntry).value.link !in seen;
    assert f(seenEntry).Some? && f(seenEntry).value.link in seen;
    assert f(otherEntry).None?;
    UnseenOfThree(unseenEntry, seenEntry, otherEntry, f, seen);
  }

  /** After the new posts' links are committed, scanning the same feed again
      finds nothing new. */
  lemma RescanAfterCommitIsEmpty(entries: seq<Entry>, seen: seq<string>, renderDate: string -> string)
    ensures NewPosts(entries, seen + Links(NewPosts(entries, seen, renderDate)), renderDate) == []
  {
    UnseenAfterCommit(FilterMap(entries, CandidateOf(renderDate)), seen);
  }
}

=== FILE: selection.dfy ===
/** One pass over a list that keeps some elements, possibly transformed, in
    their original order: the shape of every scanning loop in the monitor
    (`for (const item of items) { ...; if (...) continue; ...; newPosts.push(post) }`). */
module Selection {
  import opened Wrappers

  function Kept<B>(o: Option<B>): seq<B> {
    match o
    case Some(b) => [b]
    case None => []
  }

  /** The loop's output after visiting every element of `s` in order, pushing
      `b` whenever `f` answers `Some(b)`. */
  function FilterMap<A, B>(s: seq<A>, f: A -> Option<B>): (r: seq<B>)
    ensures |r| <= |s|
    decreases |s|
  {
    if |s| == 0 then [] else FilterMap(s[..|s| - 1], f) + Kept(f(s[|s| - 1]))
  }

  /** The positions of `s` whose element the loop keeps. */
  function Picked<A, B>(s: seq<A>, f: A -> Option<B>): seq<nat>
    decreases |s|
  {
    if |s| == 0 then []
    else Picked(s[..|s| - 1], f) + (if f(s[|s| - 1]).Some? then [|s| - 1] else [])
  }

  /** `idx` lists, in increasing order, exactly the positions of `s` where `f`
      answers `Some`, and `r` holds those answers in the same order. This is the
      independent description of what a filtering loop computes. */
  ghost predicate SelectedBy<A, B>(idx: seq<nat>, r: seq<B>, s: seq<A>, f: A -> Option<B>) {
    && |idx| == |r|
    && (forall k :: 0 <= k < |idx| ==> idx[k] < |s| && f(s[idx[k]]) == Some(r[k]))
    && (forall k, l :: 0 <= k < l < |idx| ==> idx[k] < idx[l])
    && (forall i :: 0 <= i < |s| && f(s[i]).Some? ==> i in idx)
  }

  /** The loop's output is the ordered selection of the kept answers. */
  lemma {:induction false} FilterMapSelects<A, B>(s: seq<A>, f: A -> Option<B>)
    ensures SelectedBy(Picked(s, f), FilterMap(s, f), s, f)
    decreases |s|
  {
    if |s| > 0 {
      var init := s[..|s| - 1];
      FilterMapSelects(init, f);
      var idx0 := Picked(init, f);
      var r0 := FilterMap(init, f);
      assert forall k :: 0 <= k < |idx0| ==> init[idx0[k]] == s[idx0[k]];
      assert forall i :: 0 <= i < |init| ==> init[i] == s[i];
    }
  }

  /** Conversely, any ordered selection of exactly the kept answers is the
      loop's output: the selection determines the result. */
  lemma {:induction false} SelectedByUnique<A, B>(idx: seq<nat>, r: seq<B>, s: seq<A>, f: A -> Option<B>)
    requires SelectedBy(idx, r, s, f)
    ensures r == FilterMap(s, f)
    decreases |s|
  {
    if |s| == 0 {
    } else if f(s[|s| - 1]).Some? {
      SelectedByDropKept(idx, r, s, f);
      SelectedByUnique(idx[..|idx| - 1], r[..|r| - 1], s[..|s| - 1], f);
      assert r == r[..|r| - 1] + [r[|r| - 1]];
    } else {
      SelectedByDropSkipped(idx, r, s, f);
      SelectedByUnique(idx, r, s[..|s| - 1], f);
    }
  }

  /** When the last element is kept, it is the last selected one, and the rest
      of the selection is a selection over the shorter list. */
  lemma SelectedByDropKept<A, B>(idx: seq<nat>, r: seq<B>, s: seq<A>, f: A -> Option<B>)
    requires SelectedBy(idx, r, s, f) && |s| > 0 && f(s[|s| - 1]).Some?
    ensures |idx| > 0 && idx[|idx| - 1] == |s| - 1 && f(s[|s| - 1]) == Some(r[|r| - 1])
    ensures SelectedBy(idx[..|idx| - 1], r[..|r| - 1], s[..|s| - 1], f)
  {
    var n := |s| - 1;
    var init := s[..n];
    assert n in idx;
    var j :| 0 <= j < |idx| && idx[j] == n;
    assert j == |idx| - 1;
    var idx0 := idx[..j];
    forall k | 0 <= k < |idx0|
      ensures idx0[k] < n
    {
      assert idx[k] < idx[j];
    }
    forall i | 0 <= i < |init| && f(init[i]).Some?
      ensures i in idx0
    {
      assert init[i] == s[i];
      assert i in idx;
      var k :| 0 <= k < |idx| && idx[k] == i;
      assert k != j;
      assert idx0[k] == i;
    }
  }

  /** When the last element is skipped, the same selection works over the
      shorter list. */
  lemma SelectedByDropSkipped<A, B>(idx: seq<nat>, r: seq<B>, s: seq<A>, f: A -> Option<B>)
    requires SelectedBy(idx, r, s, f) && |s| > 0 && f(s[|s| - 1]).None?
    ensures SelectedBy(idx, r, s[..|s| - 1], f)
  {
    var n := |s| - 1;
    var init := s[..n];
    forall k | 0 <= k < |idx|
      ensures idx[k] < n
    {
      assert f(s[idx[k]]).Some?;
    }
    forall i | 0 <= i < |init| && f(init[i]).Some?
      ensures i in idx
    {
      assert init[i] == s[i];
    }
  }

  /** Scanning `a` then `b` outputs the scan of `a` followed by the scan of `b`. */
  lemma {:induction false} FilterMapAppend<A, B>(a: seq<A>, b: seq<A>, f: A -> Option<B>)
    ensures FilterMap(a + b, f) == FilterMap(a, f) + FilterMap(b, f)
    decreases |b|
  {
    if |b| > 0 {
      var n := |b| - 1;
      assert (a + b)[..|a + b| - 1] == a + b[..n];
      FilterMapAppend(a, b[..n], f);
    } else {
      assert a + b == a;
    }
  }

  /** A one-element scan keeps that element's answer, if any. */
  lemma FilterMapSingle<A, B>(x: A, f: A -> Option<B>)
    ensures FilterMap([x], f) == Kept(f(x))
  {
    assert [x][..0] == [];
  }

  /** A three-element scan keeps the answers of the three elements in order. */
  lemma FilterMapThree<A, B>(x: A, y: A, z: A, f: A -> Option<B>)
    ensures FilterMap([x, y, z], f) == Kept(f(x)) + Kept(f(y)) + Kept(f(z))
  {
    FilterMapSingle(x, f);
    FilterMapSingle(y, f);
    FilterMapSingle(z, f);
    FilterMapAppend([x], [y], f);
    FilterMapAppend([x, y], [z], f);
    assert [x] + [y] == [x, y];
    assert [x, y] + [z] == [x, y, z];
  }

  /** An element the loop skips has no effect on the output, wherever it
      stands. */
  lemma FilterMapSkip<A, B>(a: seq<A>, x: A, b: seq<A>, f: A -> Option<B>)
    requires f(x).None?
    ensures FilterMap(a + [x] + b, f) == FilterMap(a + b, f)
  {
    assert FilterMap([x], f) == [] by {
      assert [x][..0] == [];
    }
    FilterMapAppend(a, [x], f);
    FilterMapAppend(a + [x], b, f);
    FilterMapAppend(a, b, f);
  }

  /** One more loop iteration: the output over `s[..i + 1]` extends the output
      over `s[..i]` by what element `i` contributes. */
  lemma FilterMapStep<A, B>(s: seq<A>, i: nat, f: A -> Option<B>)
    requires i < |s|
    ensures FilterMap(s[..i + 1], f) == FilterMap(s[..i], f) + Kept(f(s[i]))
  {
    assert s[..i + 1][..i] == s[..i];
  }

  /** A loop that keeps every element unchanged outputs its input: the
      identity positions are an ordered selection of it. */
  lemma FilterMapKeepsAll<A>(s: seq<A>, f: A -> Option<A>)
    requires forall i :: 0 <= i < |s| ==> f(s[i]) == Some(s[i])
    ensures FilterMap(s, f) == s
  {
    var ident: seq<nat> := seq(|s|, i requires 0 <= i < |s| => i);
    forall i | 0 <= i < |s| && f(s[i]).Some?
      ensures i in ident
    {
      assert ident[i] == i;
    }
    assert SelectedBy(ident, s, s, f);
    SelectedByUnique(ident, s, s, f);
  }

  /** A loop that keeps nothing outputs nothing. */
  lemma FilterMapNone<A, B>(s: seq<A>, f: A -> Option<B>)
    requires forall i :: 0 <= i < |s| ==> f(s[i]).None?
    ensures FilterMap(s, f) == []
  {
    FilterMapSelects(s, f);
  }

  /** The step that applies `f` and, when it keeps something, `g` to it. */
  function Then<A, B, C>(f: A -> Option<B>, g: B -> Option<C>): A -> Option<C> {
    a => match f(a) case Some(b) => g(b) case None => None
  }

  /** Running one loop after another equals a single loop applying both steps. */
  lemma {:induction false} FilterMapThen<A, B, C>(s: seq<A>, f: A -> Option<B>, g: B -> Option<C>)
    ensures FilterMap(FilterMap(s, f), g) == FilterMap(s, Then(f, g))
    decreases |s|
  {
    if |s| > 0 {
      var n := |s| - 1;
      FilterMapThen(s[..n], f, g);
      FilterMapAppend(FilterMap(s[..n], f), Kept(f(s[n])), g);
      KeptThen(f(s[n]), g);
      assert FilterMap(s, Then(f, g)) == FilterMap(s[..n], Then(f, g)) + Kept(Then(f, g)(s[n]));
    }
  }

  lemma KeptThen<B, C>(o: Option<B>, g: B -> Option<C>)
    ensures FilterMap(Kept(o), g) == Kept(match o case Some(b) => g(b) case None => None)
  {
    if o.Some? {
      assert Kept(o)[..0] == [];
    }
  }
}

=== FILE: storage.dfy ===
/** The seen-list store over a key-value database. The database is a map from
    keys to stored lists; whether a particular read or write call succeeds is
    an input (`readOk`, `writeOk`), because the database is remote and either
    call may throw. */
module Storage {

  /** The one key the monitor uses. */
  const SEEN_POSTS_KEY: string := "seen_posts"

  type Kv = map<string, seq<string>>

  /** `getSeenPosts()`: the stored list, or `[]` when the key is absent or the
      read throws. It never fails. */
  function GetSeenPosts(kv: Kv, readOk: bool): (seen: seq<string>)
    ensures readOk && SEEN_POSTS_KEY in kv ==> seen == kv[SEEN_POSTS_KEY]
    ensures !readOk || SEEN_POSTS_KEY !in kv ==> seen == []
  {
    if readOk && SEEN_POSTS_KEY in kv then kv[SEEN_POSTS_KEY] else []
  }

  /** `addSeenPosts(newLinks)`: read the current list (itself failing soft to
      `[]`), append `newLinks` without merging duplicates, write the result
      back. A failed write leaves the database as it was and is not reported. */
  function AddSeenPosts(kv: Kv, readOk: bool, writeOk: bool, newLinks: seq<string>): (kv': Kv)
    ensures writeOk ==> SEEN_POSTS_KEY in kv' && kv'[SEEN_POSTS_KEY] == GetSeenPosts(kv, readOk) + newLinks
    ensures !writeOk ==> kv' == kv
    ensures forall k :: k != SEEN_POSTS_KEY ==> (k in kv' <==> k in kv)
    ensures forall k :: k != SEEN_POSTS_KEY && k in kv ==> kv'[k] == kv[k]
  {
    if writeOk then kv[SEEN_POSTS_KEY := GetSeenPosts(kv, readOk) + newLinks] else kv
  }

  /** `isPostSeen(link)`: whether `link` is in the list a fresh read returns. */
  function IsPostSeen(kv: Kv, readOk: bool, link: string): (seen: bool)
    ensures seen <==> readOk && SEEN_POSTS_KEY in kv && link in kv[SEEN_POSTS_KEY]
  {
    link in GetSeenPosts(kv, readOk)
  }

  /** With both calls succeeding, the stored list grows by exactly `newLinks`:
      the old list is a prefix, and a link already present is stored twice. */
  lemma AddSeenPostsAppends(kv: Kv, newLinks: seq<string>)
    ensures var before := GetSeenPosts(kv, true);
            var after := GetSeenPosts(AddSeenPosts(kv, true, true, newLinks), true);
            && |after| == |before| + |newLinks|
            && after[..|before|] == before
            && after[|before|..] == newLinks
            && multiset(after) == multiset(before) + multiset(newLinks)
  {
  }

  /** After a successful commit every committed link and every link stored
      before it reads as seen. */
  lemma AddThenSeen(kv: Kv, newLinks: seq<string>)
    ensures var kv' := AddSeenPosts(kv, true, true, newLinks);
            && (forall l :: l in newLinks ==> IsPostSeen(kv', true, l))
            && (forall l :: IsPostSeen(kv, true, l) ==> IsPostSeen(kv', true, l))
  {
  }

  /** If the read inside `addSeenPosts` throws but the write goes through, the
      stored list becomes exactly `newLinks`: every earlier link not among them
      is forgotten. */
  lemma ReadFailureLosesHistory(kv: Kv, newLinks: seq<string>)
    ensures var kv' := AddSeenPosts(kv, false, true, newLinks);
            && GetSeenPosts(kv', true) == newLinks
            && (forall l :: IsPostSeen(kv, true, l) && l !in newLinks ==> !IsPostSeen(kv', true, l))
  {
  }

  /** A read that throws reports nothing as seen. */
  lemma ReadFailureSeesNothing(kv: Kv, link: string)
    ensures !IsPostSeen(kv, false, link)
  {
  }
}

=== FILE: text.dfy ===
/** The few string operations of the JavaScript runtime the monitor relies on:
    `trim`, `toLowerCase`, `includes` and decimal rendering of counts. */
module Text {

  /** The code points JavaScript's `String.prototype.trim` removes: the
      WhiteSpace and LineTerminator productions of ECMAScript. */
  predicate IsJsSpace(c: char) {
    var n := c as int;
    n == 0x09 || n == 0x0A || n == 0x0B || n == 0x0C || n == 0x0D || n == 0x20
    || n == 0xA0 || n == 0x1680 || (0x2000 <= n <= 0x200A) || n == 0x2028
    || n == 0x2029 || n == 0x202F || n == 0x205F || n == 0x3000 || n == 0xFEFF
  }

  predicate AllSpace(s: string) {
    forall k :: 0 <= k < |s| ==> IsJsSpace(s[k])
  }

  /** Leading whitespace removed. */
  function TrimStart(s: string): string
    decreases |s|
  {
    if |s| > 0 && IsJsSpace(s[0]) then TrimStart(s[1..]) else s
  }

  /** Trailing whitespace removed. */
  function TrimEnd(s: string): string
    decreases |s|
  {
    if |s| > 0 && IsJsSpace(s[|s| - 1]) then TrimEnd(s[..|s| - 1]) else s
  }

  /** `s.trim()`. */
  function Trim(s: string): string {
    TrimEnd(TrimStart(s))
  }

  /** `r` is the suffix of `s` left after its leading whitespace. */
  predicate StartTrimmed(s: string, r: string) {
    && |r| <= |s| && r == s[|s| - |r|..]
    && AllSpace(s[..|s| - |r|])
    && (r == [] || !IsJsSpace(r[0]))
  }

  /** `TrimStart` keeps the suffix of `s` that starts at its first non-space
      character. */
  lemma {:induction false} TrimStartSpec(s: string)
    ensures StartTrimmed(s, TrimStart(s))
    decreases |s|
  {
    if |s| > 0 && IsJsSpace(s[0]) {
      TrimStartSpec(s[1..]);
      TrimStartStep(s, TrimStart(s[1..]));
    } else {
      assert s[..0] == [];
    }
  }

  /** A leading space in front of a trimmed suffix leaves it trimmed. */
  lemma TrimStartStep(s: string, r: string)
    requires |s| > 0 && IsJsSpace(s[0]) && StartTrimmed(s[1..], r)
    ensures StartTrimmed(s, r)
  {
    var tail := s[1..];
    var k := |s| - |r|;
    assert r == s[k..] by {
      assert tail[k - 1..] == s[k..];
    }
    assert s[..k] == [s[0]] + tail[..k - 1];
    AllSpaceAppend([s[0]], tail[..k - 1]);
  }

  /** `r` is the prefix of `s` left before its trailing whitespace. */
  predicate EndTrimmed(s: string, r: string) {
    && |r| <= |s| && r == s[..|r|]
    && AllSpace(s[|r|..])
    && (r == [] || !IsJsSpace(r[|r| - 1]))
  }

  /** `TrimEnd` keeps the prefix of `s` that ends at its last non-space
      character. */
  lemma {:induction false} TrimEndSpec(s: string)
    ensures EndTrimmed(s, TrimEnd(s))
    decreases |s|
  {
    if |s| > 0 && IsJsSpace(s[|s| - 1]) {
      TrimEndSpec(s[..|s| - 1]);
      TrimEndStep(s, TrimEnd(s[..|s| - 1]));
    } else {
      assert s[|s|..] == [];
    }
  }

  /** A trailing space after a trimmed prefix leaves it trimmed. */
  lemma TrimEndStep(s: string, r: string)
    requires |s| > 0 && IsJsSpace(s[|s| - 1]) && EndTrimmed(s[..|s| - 1], r)
    ensures EndTrimmed(s, r)
  {
    var init := s[..|s| - 1];
    assert r == s[..|r|] by {
      assert init[..|r|] == s[..|r|];
    }
    assert s[|r|..] == init[|r|..] + [s[|s| - 1]];
    AllSpaceAppend(init[|r|..], [s[|s| - 1]]);
  }

  /** `r` sits at offset `i` of `s` with only whitespace before and after it. */
  predicate TrimmedAt(s: string, r: string, i: nat) {
    OccursAt(s, r, i) && AllSpace(s[..i]) && AllSpace(s[i + |r|..])
  }

  /** `s.trim()` is empty exactly when `s` is all whitespace, and otherwise
      neither starts nor ends with whitespace. */
  lemma TrimSpec(s: string)
    ensures Trim(s) == [] <==> AllSpace(s)
    ensures Trim(s) == [] || (!IsJsSpace(Trim(s)[0]) && !IsJsSpace(Trim(s)[|Trim(s)| - 1]))
  {
    var t := TrimStart(s);
    var r := TrimEnd(t);
    TrimStartSpec(s);
    TrimEndSpec(t);
    TrimEmptyIffAllSpace(s, t, r);
  }

  lemma TrimEmptyIffAllSpace(s: string, t: string, r: string)
    requires |t| <= |s| && t == s[|s| - |t|..] && AllSpace(s[..|s| - |t|])
    requires t == [] || !IsJsSpace(t[0])
    requires |r| <= |t| && r == t[..|r|] && AllSpace(t[|r|..])
    ensures r == [] <==> AllSpace(s)
    ensures r != [] ==> r[0] == t[0]
  {
    var i := |s| - |t|;
    assert s == s[..i] + t;
    if r == [] {
      assert t[|r|..] == t;
      AllSpaceAppend(s[..i], t);
    } else {
      assert r[0] == t[0] == s[i];
    }
  }

  lemma AllSpaceAppend(a: string, b: string)
    requires AllSpace(a) && AllSpace(b)
    ensures AllSpace(a + b)
  {
    forall k | 0 <= k < |a + b|
      ensures IsJsSpace((a + b)[k])
    {
      if k < |a| {
        assert (a + b)[k] == a[k];
      } else {
        assert (a + b)[k] == b[k - |a|];
      }
    }
  }

  /** What `trim` removes is whitespace and nothing else: the trimmed string is
      the slice of `s` between a run of leading and a run of trailing spaces. */
  lemma TrimIsSlice(s: string)
    ensures exists i: nat :: TrimmedAt(s, Trim(s), i)
  {
    var t := TrimStart(s);
    var r := TrimEnd(t);
    TrimStartSpec(s);
    TrimEndSpec(t);
    var i := |s| - |t|;
    assert t == s[i..];
    assert r == t[..|r|] == s[i..i + |r|];
    assert s[i + |r|..] == t[|r|..];
    assert Trim(s) == r;
    assert OccursAt(s, r, i);
    assert TrimmedAt(s, r, i);
  }

  /** Trimming twice is trimming once. */
  lemma TrimIdempotent(s: string)
    ensures Trim(Trim(s)) == Trim(s)
  {
    var t := Trim(s);
    TrimSpec(s);
    if t != [] {
      assert TrimStart(t) == t;
      assert TrimEnd(t) == t;
    }
  }

  function LowerChar(c: char): char {
    if 'A' <= c <= 'Z' then (c as int + 32) as char else c
  }

  /** `s.toLowerCase()` restricted to the ASCII letters. */
  function ToLower(s: string): (r: string)
    ensures |r| == |s|
    ensures forall k :: 0 <= k < |s| ==> r[k] == LowerChar(s[k])
  {
    seq(|s|, k requires 0 <= k < |s| => LowerChar(s[k]))
  }

  /** Lower-casing a lower-cased string changes nothing, and no upper-case
      ASCII letter survives it. */
  lemma ToLowerIdempotent(s: string)
    ensures ToLower(ToLower(s)) == ToLower(s)
    ensures forall k :: 0 <= k < |s| ==> !('A' <= ToLower(s)[k] <= 'Z')
  {
  }

  predicate OccursAt(s: string, pat: string, i: nat) {
    i + |pat| <= |s| && s[i..i + |pat|] == pat
  }

  /** `s.includes(pat)`: `pat` occurs somewhere in `s` as a contiguous block. */
  function Contains(s: string, pat: string): (r: bool)
    ensures r <==> exists i: nat :: OccursAt(s, pat, i)
    decreases |s|
  {
    if |pat| > |s| then false
    else if s[..|pat|] == pat then
      assert OccursAt(s, pat, 0);
      true
    else
      var rest := Contains(s[1..], pat);
      assert forall i: nat :: OccursAt(s[1..], pat, i) <==> OccursAt(s, pat, i + 1) by {
        forall i: nat ensures OccursAt(s[1..], pat, i) <==> OccursAt(s, pat, i + 1) {
          if i + |pat| <= |s| - 1 {
            assert s[1..][i..i + |pat|] == s[i + 1..i + 1 + |pat|];
          }
        }
      }
      assert !OccursAt(s, pat, 0);
      assert rest ==> exists i: nat :: OccursAt(s, pat, i) by {
        if rest {
          var i: nat :| OccursAt(s[1..], pat, i);
          assert OccursAt(s, pat, i + 1);
        }
      }
      assert (exists i: nat :: OccursAt(s, pat, i)) ==> rest by {
        if exists i: nat :: OccursAt(s, pat, i) {
          var i: nat :| OccursAt(s, pat, i);
          assert i != 0;
          assert OccursAt(s[1..], pat, i - 1);
        }
      }
      rest
  }

  predicate IsDigit(c: char) {
    '0' <= c <= '9'
  }

  function DigitChar(d: nat): char
    requires d < 10
  {
    ('0' as int + d) as char
  }

  /** The decimal rendering JavaScript gives a non-negative integer in a
      template literal: digits only, no leading zero except for 0 itself. */
  function NatToString(n: nat): (r: string)
    ensures |r| >= 1
    ensures forall k :: 0 <= k < |r| ==> IsDigit(r[k])
    ensures r[0] == '0' ==> n == 0
  {
    if n < 10 then [DigitChar(n)] else NatToString(n / 10) + [DigitChar(n % 10)]
  }

  /** Reads a string of decimal digits back as a number. */
  function DigitsValue(s: string): nat
  {
    if s == [] then 0
    else
      var c := s[|s| - 1];
      var d := if IsDigit(c) then c as int - '0' as int else 0;
      DigitsValue(s[..|s| - 1]) * 10 + d
  }

  /** Rendering a count in decimal loses nothing: it reads back as the count. */
  lemma {:induction false} NatToStringRoundTrip(n: nat)
    ensures DigitsValue(NatToString(n)) == n
  {
    if n >= 10 {
      var s := NatToString(n);
      assert s[..|s| - 1] == NatToString(n / 10);
      NatToStringRoundTrip(n / 10);
    }
  }

  /** Different counts render differently. */
  lemma NatToStringInjective(n: nat, m: nat)
    ensures NatToString(n) == NatToString(m) ==> n == m
  {
    NatToStringRoundTrip(n);
    NatToStringRoundTrip(m);
  }
}

=== FILE: wrappers.dfy ===
/** Optional values and success-or-error results used throughout the model.
    `Option` stands for TypeScript's `T | null | undefined`; `Result` stands for
    "returns a value or throws an Error whose message is `error`". */
module Wrappers {

  datatype Option<+T> = None | Some(value: T)

  datatype Result<+T> = Ok(value: T) | Err(error: string)

  /** What a `catch (error)` clause receives: an `Error` object carrying a
      message, or some other thrown value. */
  datatype Thrown = ErrorObject(message: string) | OtherValue

  /** `error instanceof Error ? error.message : "Unknown error"`, the idiom
      every catch clause of the monitor uses to turn a thrown value into text. */
  function ErrorMessage(t: Thrown): (m: string)
    ensures t.ErrorObject? ==> m == t.message
    ensures t.OtherValue? ==> m == "Unknown error"
  {
    match t
    case ErrorObject(msg) => msg
    case OtherValue => "Unknown error"
  }

  /** `response.ok` of the Fetch API: the status is in the range 200-299. */
  predicate StatusOk(status: nat) {
    200 <= status <= 299
  }
}
